=== FILE: README.md ===
# Bitcoin positions tracker and energy-stream transformer, modelled in Dafny

This project models the logic at the centre of a small cloud application. The application has three parts.

- **The browser client.** It follows the live BTCUSDT price over a WebSocket and reconnects with exponential backoff. It computes the profit and loss of the user's positions. It validates the forms that create and edit positions, and replaces its list when a refresh succeeds.
- **The positions API.** This is a DynamoDB-backed store of positions served in two shapes:
  - an Express server with a global CORS middleware;
  - two Lambda handlers: `crud.js` for create, update and delete, and `read.js` for get-by-id and scan.
- **The Firehose transformer.** For each record it decodes the Base 64 payload and parses the JSON. It re-encodes the record with a trailing newline, tags it with the UTC processing date, and marks any record that fails as `ProcessingFailed`.

The modules are:

| file | module | what it holds |
|---|---|---|
| wrappers.dfy | `Wrappers` | `Option` and `Result` |
| js_values.dfy | `JsValues` | JavaScript scalar values and their truthiness |
| position_store.dfy | `PositionStore` | the positions table as a map from id to item; scan, get, put, update, delete |
| position_api.dfy | `PositionApi` | requests, responses, and the behaviour shared by every operation |
| express_server.dfy | `ExpressServer` | `app.js`: the CORS middleware and the five position routes |
| lambda_crud.dfy | `LambdaCrud` | `crud.js`: method dispatch with 405 and the `res` helper |
| lambda_read.dfy | `LambdaRead` | `read.js`: get-by-id or scan, with 404 |
| hosting.dfy | `Hosting` | properties of both shapes together and of request sequences |
| price_feed.dfy | `PriceFeed` | the reconnect state machine |
| valuation.dfy | `Valuation` | per-position and total P&L |
| client_forms.dfy | `ClientForms` | the form validators and the list refresh |
| base64.dfy | `Base64` | the Base 64 encoding of section 4 of RFC 4648 (strict decoding) |
| firehose.dfy | `Firehose` | the per-record transformation and the handler loop |

Modelling choices:

- **The table** is a `map<string, Item>`. The attribute `type` is called `kind`, because `type` is a Dafny keyword.
- **Store failures.** A failure of the store call is an input, `fault: Option<string>`. When it is `Some(m)`, the one store call the request makes throws, with message `m`.
- **Fresh ids.** `uuidv4()` is an input, `newId`. The ghost function `PositionStore.FreshId` shows that an unused id always exists.
- **List responses** are sets of items, because a scan does not promise an order.
- **Path ids.** An empty `{id}` path segment counts as no id. The Lambda handlers test `if (id)`, and Express routes `/positions/` to `/positions`.
- **The Firehose transformer** takes the JSON parser and printer as function parameters. It takes the clock as a function from the record's position to a UTC date, because the source reads the clock once per record.

## Model

| member | source | states |
|---|---|---|
| PositionStore.Scan | full-app-deployment/backend/ecs/app.js:104 | every stored item is in the result, and everything in the result is a stored item |
| PositionStore.Get | full-app-deployment/backend/lambda/lambdas/read.js:12-18 | an item comes back exactly when the key is stored, and it is the stored item |
| PositionStore.Put | full-app-deployment/backend/ecs/app.js:162-163 | the item is stored under its id, the keys gain that id, and every other key keeps its item |
| PositionStore.Update | full-app-deployment/backend/ecs/app.js:196-214 | an upsert: the item under `id` becomes the five attributes plus the id, other keys are untouched, and the answer is the new item (ALL_NEW) |
| PositionStore.Delete | full-app-deployment/backend/ecs/app.js:239 | the id leaves the key set and every remaining key keeps its item; deleting an absent key is not an error |
| PositionStore.FreshId | full-app-deployment/backend/ecs/app.js:162 | for any table there is an id not yet stored, so a fresh id never overwrites an item |
| JsValues.Truthy | full-app-deployment/backend/ecs/app.js:159 | a value is truthy exactly when it is not one of JavaScript's falsy values a JSON body can carry: `undefined`, `null`, `false`, `0`, `""` |
| PositionApi.HasRequiredFields | full-app-deployment/backend/ecs/app.js:159-160 | a create passes its check exactly when none of symbol, quantity, type and date is falsy |
| PositionApi.EntryIsNotRequired | full-app-deployment/backend/ecs/app.js:159 | the check ignores `entry`: any value of it, `undefined` included, leaves the outcome unchanged |
| ExpressServer.ListPositions | full-app-deployment/backend/ecs/app.js:102-109 | without a fault, 200 with exactly the stored items; with one, 500 with the error message; the table is unchanged; the CORS origin header is `*` |
| ExpressServer.GetPosition | full-app-deployment/backend/ecs/app.js:129-138 | 200 with the stored item, 404 `{message: "Not found"}` when absent, 500 on a fault; the table is unchanged |
| ExpressServer.CreatePosition | full-app-deployment/backend/ecs/app.js:156-168 | 400 `Missing required fields` unless symbol, quantity, type and date are all truthy (entry is not checked); then 500 on a fault; otherwise 201 with the new item, which is added under the fresh id with nothing else changed |
| ExpressServer.ReplacePosition | full-app-deployment/backend/ecs/app.js:192-218 | 200 with the item as written, which is created if absent and whose fields are not validated; 500 on a fault with the table unchanged |
| ExpressServer.DeletePosition | full-app-deployment/backend/ecs/app.js:236-244 | 200 `{deleted: id}` whether or not the id existed, and the id is gone; 500 on a fault |
| ExpressServer.Serve | full-app-deployment/backend/ecs/app.js:23-29 | every answer carries the three CORS headers; OPTIONS is answered 200 "OK" before any route and leaves the table alone; each method and path combination reaches its route's behaviour; HEAD goes through the GET routes (status 200, 404 or 500, no body, table unchanged); exactly the other combinations get Express's 404 |
| LambdaCrud.Handler | full-app-deployment/backend/lambda/lambdas/crud.js:8-54 | POST creates and DELETE with an id deletes, as the server does; PUT with an id performs the same upsert and status but answers with the item in DynamoDB's typed form; the status is 405 `Method not allowed` exactly when none of the three applies, and then the table is unchanged; every answer has `Access-Control-Allow-Origin: *` |
| LambdaCrud.UnmarshalledHandler | full-app-deployment/backend/lambda/lambdas/crud.js:40-41 | the handler with the PUT answer unmarshalled: every branch, PUT included, has the server's behaviour |
| LambdaCrud.Reply | full-app-deployment/backend/lambda/lambdas/crud.js:56-62 | the response carries the given status and body and exactly one header, the origin `*` (none of the server's Allow-Headers / Allow-Methods) |
| LambdaRead.Handler | full-app-deployment/backend/lambda/lambdas/read.js:7-37 | with an id, get-by-id (200 or 404); without one, the whole table; 500 on a fault; never changes the table |
| LambdaRead.Reply | full-app-deployment/backend/lambda/lambdas/read.js:31-37 | the response carries the given status and body and exactly one header, the origin `*` |
| Hosting.Routed | full-app-deployment/backend/lambda/lambdas/read.js:7-29 | a GET never changes the table and is never 405; any other request is 405 exactly when the crud handler does not handle it; the origin header is always `*` |
| Hosting.ShapesAgree | full-app-deployment/backend/lambda/lambdas/crud.js:14-47 | for list, get, create, replace and delete the Express server and the two Lambda handlers give the same status and resulting table, the same body for every operation but replace, and both allow any origin |
| Hosting.PutBodiesDiffer | full-app-deployment/backend/lambda/lambdas/crud.js:40-41 | a successful replace is answered with the plain item by the server and with the typed item by the crud handler, so the two bodies differ |
| Hosting.ShapesAgreeUnmarshalled | full-app-deployment/backend/lambda/lambdas/crud.js:40-41 | with the PUT answer unmarshalled the shapes agree on every logical operation, body included |
| Hosting.HeadMirrorsGet | full-app-deployment/backend/ecs/app.js:102-138 | the server answers HEAD with the status and table of the matching GET, and no body |
| Hosting.ListingIsUnique | full-app-deployment/backend/lambda/lambdas/read.js:21-23 | any two list answers for the same table and fault agree |
| Hosting.PreflightDiffers | full-app-deployment/backend/lambda/lambdas/crud.js:49 | a preflight OPTIONS is 200 from the server's middleware but 405 from the crud handler |
| Hosting.KeepsWellKeyed | full-app-deployment/backend/ecs/app.js:156-244 | no request to either shape stores an item under a key other than its own id |
| Hosting.ListedIdsAreUnique | full-app-deployment/backend/ecs/app.js:102-109 | in a well-keyed table, a listing never holds two items with the same id |
| Hosting.CreateThenGet | full-app-deployment/backend/ecs/app.js:129-168 | a valid create with an unused id answers 201, grows the table by exactly one, and a get of that id returns the payload plus the id |
| Hosting.CreateWithFreshIdThenGet | full-app-deployment/backend/ecs/app.js:162-164 | a valid create under the id the fresh-id oracle supplies answers 201, keeps every existing item, grows the table by one, and the new id reads back as the payload plus the id |
| Hosting.CardinalityOfInsert | full-app-deployment/backend/ecs/app.js:162-163 | storing under a new key adds exactly one to the table's size |
| Hosting.DeleteIsIdempotent | full-app-deployment/backend/ecs/app.js:236-244 | deleting twice gives the same answer and table as deleting once |
| Hosting.GetAfterDeleteIsNotFound | full-app-deployment/backend/ecs/app.js:129-138 | a get of a just-deleted id answers 404 `Not found` |
| PriceFeed.BackoffDelay | full-app-deployment/frontend/scripts.js:196 | the delay is never above 30 s and is at least 2 s for any attempt after the increment; it is 1000·2ⁿ ms up to the fourth attempt and 30 s from the fifth |
| PriceFeed.Shown | full-app-deployment/frontend/scripts.js:204-215 | the indicator reads "Live" exactly when connected, and "Reconnecting..." exactly when disconnected after a retry has begun |
| PriceFeed.OnOpen | full-app-deployment/frontend/scripts.js:166-170 | the counter resets to 0, the indicator shows "Live", and nothing is scheduled |
| PriceFeed.OnError | full-app-deployment/frontend/scripts.js:177-184 | the indicator leaves "Live" for "Reconnecting..." once a retry has begun and "Disconnected" before, and the counter is unchanged; the lost-connection notice appears exactly when no retry has yet been made, and nothing else is emitted |
| PriceFeed.AttemptReconnect | full-app-deployment/frontend/scripts.js:193-202 | below 5 attempts: the counter goes up by one and exactly one reopening is scheduled, after the backoff for the new count (2–30 s); at 5: nothing is scheduled, the counter stays, and the refresh notice is shown |
| PriceFeed.OnClose | full-app-deployment/frontend/scripts.js:186-190 | the indicator shows "Reconnecting..." or "Disconnected" from the counter before the attempt; below 5 the counter goes up by one and exactly the backoff for the new count is scheduled; at 5 the counter stays and only the refresh notice is shown |
| PriceFeed.Handle | full-app-deployment/frontend/scripts.js:166-190 | no socket event takes the counter above 5 |
| PriceFeed.RunStaysBounded | full-app-deployment/frontend/scripts.js:10-11 | from a bounded state, no sequence of events takes the counter above `MAX_RECONNECT_ATTEMPTS` |
| PriceFeed.RunDelaysInRange | full-app-deployment/frontend/scripts.js:193-198 | every delay scheduled in any run lies between 2 and 30 seconds |
| PriceFeed.RunAppend | full-app-deployment/frontend/scripts.js:163-191 | running two event sequences one after the other is running their concatenation |
| PriceFeed.BackoffScheduleValues | full-app-deployment/frontend/scripts.js:196 | the delays for attempts 1 to 5 are 2, 4, 8, 16 and 30 seconds |
| PriceFeed.OneFailure | full-app-deployment/frontend/scripts.js:177-202 | one failed socket (error, then close) adds one attempt up to the cap, schedules the next backoff below the cap, shows the lost-connection notice only from a fresh connection, and shows the refresh notice only at the cap |
| PriceFeed.EpisodeBackoff | full-app-deployment/frontend/scripts.js:186-202 | after k consecutive failures from a fresh connection the counter is min(k, 5) and the delays so far are the first min(k, 5) of 2, 4, 8, 16, 30 s |
| PriceFeed.EpisodeNotices | full-app-deployment/frontend/scripts.js:177-202 | after k consecutive failures the lost-connection notice has shown once (if k > 0) and the refresh notice k − 5 times (if k > 5) |
| PriceFeed.FailureEpisode | full-app-deployment/frontend/scripts.js:163-202 | the counter, the delay schedule and both notices of a whole failure episode, together |
| Valuation.PnLPercent | full-app-deployment/frontend/scripts.js:442-446 | 0 when there is no price or no entry; otherwise the result times the entry is 100 times the favourable move (price − entry for a buy, entry − price otherwise) |
| Valuation.PnLAbsolute | full-app-deployment/frontend/scripts.js:392-397 | the row's absolute P&L is the favourable price move times the quantity |
| Valuation.Reduce | full-app-deployment/frontend/scripts.js:455-460 | the left fold from any start adds the sum of the rows' absolute P&L |
| Valuation.TotalPnL | full-app-deployment/frontend/scripts.js:448-453 | 0 with no positions or no price |
| Valuation.TotalIsNetExposure | full-app-deployment/frontend/scripts.js:455-460 | with positions and a price, the total is price × net quantity − net entry cost, with buys counting plus and every other type minus |
| Valuation.TotalIsRowSum | full-app-deployment/frontend/scripts.js:391-397 | with a price, the total is the sum of the rows' absolute P&L as the table shows them |
| Valuation.RowSumIsExposure | full-app-deployment/frontend/scripts.js:455-460 | the rows' absolute P&L add up to price × net quantity − net entry cost |
| Valuation.RowIsExposure | full-app-deployment/frontend/scripts.js:392-397 | one row's absolute P&L is its signed quantity times the price less its signed entry value |
| Valuation.Opposite | full-app-deployment/frontend/scripts.js:444 | flipping a position's type flips whether it is valued as a buy |
| Valuation.OppositeNegates | full-app-deployment/frontend/scripts.js:442-446 | the buy and the sell of the same position have exactly opposite percentage and absolute P&L |
| Valuation.PercentMatchesAbsolute | full-app-deployment/frontend/scripts.js:391-397 | with a price and an entry, the absolute P&L is percentage / 100 × entry × quantity |
| Valuation.WorkedExample | full-app-deployment/frontend/scripts.js:442-460 | entry 100, price 110, quantity 2: a buy is +20 (+10 %), a sell −20 (−10 %), and the two together total 0 |
| ClientForms.ValidateNew | full-app-deployment/frontend/scripts.js:338-364 | accepted exactly when entry and quantity are both positive numbers; the entry is checked first; an accepted body is for BTCUSDT, stamped with the current time |
| ClientForms.FindById | full-app-deployment/frontend/scripts.js:140 | the index of the first position with that id, or none when no position has it |
| ClientForms.ValidateEdit | full-app-deployment/frontend/scripts.js:122-152 | accepted exactly when entry and quantity are positive and the id is in the list; the body keeps the first match's date and fixes the symbol to BTCUSDT |
| ClientForms.ApplyFetch | full-app-deployment/frontend/scripts.js:254-267 | a 2xx reply with a parsed body replaces the list and raises nothing; any other reply keeps the list and raises a notice ("Failed to fetch positions" for a non-2xx status, the error's own message otherwise) |
| ClientForms.RefreshedIsLastGood | full-app-deployment/frontend/scripts.js:254-267 | after any series of refreshes the list is the body of the last good one, or the initial list if none was good |
| Base64.IndexOf | etl-data-science/src/lambda/firehose_processor.py:15 | a character with a value is that value's alphabet character; the pad character has no value |
| Base64.IndexOfCharOf | etl-data-science/src/lambda/firehose_processor.py:15 | each alphabet character's value is its index in the alphabet |
| Base64.SplitJoins | etl-data-science/src/lambda/firehose_processor.py:27 | the three bytes come back out of the four sextets they are split into |
| Base64.Encode | etl-data-science/src/lambda/firehose_processor.py:27 | every character of an encoding is in the alphabet or is `=` |
| Base64.Decode | etl-data-science/src/lambda/firehose_processor.py:15 | decoding succeeds only on text made of alphabet characters and `=` |
| Base64.EncodeLength | etl-data-science/src/lambda/firehose_processor.py:27 | the encoding has 4 characters for every 3 bytes or part of 3 |
| Base64.DecodeEncode | etl-data-science/src/lambda/firehose_processor.py:15-27 | decoding an encoding gives back exactly the bytes |
| Base64.DecodeCons | etl-data-science/src/lambda/firehose_processor.py:15 | a leading quantum decodes independently of the quanta after it |
| Base64.EncodeCons | etl-data-science/src/lambda/firehose_processor.py:27 | three or more bytes encode as their first quantum followed by the encoding of the rest |
| Base64.DecodeQuantumCons | etl-data-science/src/lambda/firehose_processor.py:15 | a whole quantum in front of any decodable text decodes to its three bytes in front of that text's bytes |
| Firehose.Digits | etl-data-science/src/lambda/firehose_processor.py:20 | a number is written with exactly the requested width, zero-padded |
| Firehose.ParseDigitsOfDigits | etl-data-science/src/lambda/firehose_processor.py:20 | reading back the zero-padded digits gives the number |
| Firehose.FormatDate | etl-data-science/src/lambda/firehose_processor.py:19-20 | `%Y-%m-%d` is ten characters with dashes at positions 4 and 7 |
| Firehose.ParseFormatDate | etl-data-science/src/lambda/firehose_processor.py:19-20 | the partition key reads back as the date it was made from |
| Firehose.Transform | etl-data-science/src/lambda/firehose_processor.py:13-44 | the record id is kept; the result is `Ok` exactly when the payload decodes and parses; then the data decodes to the re-serialised JSON plus a newline and the processing date is the day's `YYYY-MM-DD`; otherwise the data is passed through unchanged with no partition key |
| Firehose.MapIndexedPointwise | etl-data-science/src/lambda/firehose_processor.py:12 | processing records in order keeps the count and puts each record's output at its own position |
| Firehose.LambdaHandler | etl-data-science/src/lambda/firehose_processor.py:4-46 | one output per input, in the same order, each the transformation of its own input on the date read for it, so one failing record does not affect the others (records carry both `recordId` and `data`) |

## Findings

| source | as written | input that shows it | evidently intended | confidence | as-written member | corrected member |
|---|---|---|---|---|---|---|
| full-app-deployment/backend/lambda/lambdas/crud.js:40-41 | the PUT branch answers with `result.Attributes` from the low-level `UpdateItemCommand`, and only `marshall` is imported, so the answer is DynamoDB's typed JSON (`{"id": {"S": …}, "quantity": {"N": …}, …}`) | any `PUT /positions/{id}` whose body has all five attributes, with no store error; `Hosting.PutBodiesDiffer` shows the server's body and the handler's body differ | `res(200, unmarshall(result.Attributes))`, the plain item that the server (`app.js:214`) and `read.js` (`unmarshall`) answer; `Hosting.ShapesAgreeUnmarshalled` proves the shapes then agree on every logical operation | medium; not executed | LambdaCrud.Handler | LambdaCrud.UnmarshalledHandler |

## Left out

- The DOM, toasts, CSS classes, number formatting, the ticker display (`updateTickerData`), timers and the WebSocket itself. Each transition reports the notices it would show and the delays it would schedule instead.
- `setTimeout(connectWebSocket, delay)` is not run. A scheduled reopening is an effect, and the next socket's callbacks are the next events of a run.
- The API key, configuration modal, `addPosition`, `updatePosition` and `deletePosition` are left out. These are network calls whose only logic is "throw on a non-2xx status", which `ClientForms.ApplyFetch` models for the list refresh.
- IEEE floating point: `NaN`, infinities and rounding are left out. Prices and quantities are real numbers, and a `parseFloat` that yields `NaN` is `None`.
- `JSON.parse` of a malformed Lambda body throws before the handler's `try`, so API Gateway answers with its own 502. This is not modelled: a body is either absent or a parsed object.
- For Express, body-parser 1.x is assumed, whose JSON parser turns a missing body into `{}`. Under body-parser 2.x `req.body` stays undefined, so the destructuring at `app.js:158` and `app.js:195` throws and the route answers 500. The parser's 400 for malformed JSON is left out.
- ExpressServer.ReplacePosition: a PUT body must carry all five attributes for the 200 path. In the source, the DocumentClient drops `undefined` entries from `ExpressionAttributeValues`. DynamoDB then rejects the update expression that names them, so the route answers 500 (`app.js:204-216`). The model answers 200 and stores `Undefined`. It answers 500 only when the store call fails.
- LambdaCrud.Handler: `marshall` from the SDK's util package throws on an `undefined` value. So in the source, a POST that omits `entry` (which the required-field check lets through) answers 500 from the crud handler. The model answers 201, as the server does. A PUT with any of the five attributes missing likewise answers 500 in the source. Items in the model store the attributes as the request gave them. Hosting.ShapesAgree and Hosting.ShapesAgreeUnmarshalled therefore hold in the source only for bodies whose five attributes are all present.
- Scan pagination (`LastEvaluatedKey`) is left out. Neither shape follows it, and a table is modelled as fitting one page.
- `/health`, `/openapi.json`, `/` and the Swagger document are left out. They are static answers with no logic to prove.
- The gateway routing of GET requests to `read.js` and every other method to `crud.js` is an assumption of `Hosting.Routed`. The deployment descriptor is not part of this model.
- The Kinesis producer and the Glue aggregation scripts are not part of this model.
- Hosting.ShapesAgree: in the source the two shapes disagree on bodies with a missing attribute. A POST that omits `entry` answers 201 from the server, because the DocumentClient drops `undefined` values, and 500 from the crud handler, because `marshall` throws on them. A PUT with any attribute missing answers 500 from both, where the model answers 200. The lemma's agreement therefore holds in the source only for bodies carrying all five attributes, and the model's items may hold `Undefined`.
- Hosting.ShapesAgreeUnmarshalled: the same gap as `Hosting.ShapesAgree`. The corrected handler still marshalls its input, so its agreement with the server holds in the source only for bodies carrying all five attributes.
- Base64.Decode: decodes strictly by section 4 of RFC 4648, while Python's non-validating `b64decode` is lenient. The decoder rejects characters outside the alphabet, `=` in the first two positions of a quantum, and text after the first complete padding. `b64decode` discards the first, ignores the second and stops at the third. On every text the decoder accepts, the two give the same bytes.
- Firehose.Transform: the decoder is strict, while Python's non-validating `b64decode` is lenient in three ways. It discards characters outside the alphabet. It ignores `=` in the first two positions of a quantum, so `"=QUJD"` gives `ABC`. It stops at the first complete padding and ignores the rest, so `"MQ==e30="` gives `1`. For such payloads the source can answer `Ok` where the model answers `ProcessingFailed`. Every payload the model accepts is decoded the same way by both, and the round trip holds either way.
- Decoding the payload as UTF-8 is folded into the abstract JSON parser. It receives the decoded bytes and may reject them.
- Firehose.Transform: years outside 1000–9999 are excluded, because `%Y` is then no longer four digits.
- Firehose.LambdaHandler: a record is assumed to carry both `recordId` and `data`, as Firehose always supplies them. In the source, a record missing either key makes the `except` branch raise again (`firehose_processor.py:40,42`), which fails the whole batch.
- ClientForms.ApplyFetch: a holding always has a numeric `entry` and `quantity`. In the source, a 2xx list containing an item without one (the server's create does not require `entry`) is assigned to `positions` and then makes `renderPositions` throw. The list is therefore replaced and a notice is raised as well, a third outcome the model does not have.
- LambdaCrud.Handler: the `{}` answer to a PUT without attributes is modelled, but `Update` always returns the written item (ALL_NEW on a store without other attributes), so that branch is never taken. ExpressServer.ReplacePosition's empty-body branch is never taken for the same reason.
- Console logging (`console.log`, `console.error`, `print`) is left out.

=== FILE: base64.dfy ===
/**
 * Base 64 encoding as section 4 of RFC 4648 defines it: the standard
 * alphabet, `=` padding to a whole number of four-character quanta, and a
 * decoder that rejects characters outside the alphabet and misplaced padding.
 */
module Base64 {
  import opened Wrappers

  type byte = b: int | 0 <= b < 256
  type sextet = i: int | 0 <= i < 64

  const Pad := '='

  /** The alphabet of table 1: `A`–`Z`, `a`–`z`, `0`–`9`, `+`, `/`. */
  function CharOf(i: sextet): char {
    if i < 26 then ('A' as int + i) as char
    else if i < 52 then ('a' as int + (i - 26)) as char
    else if i < 62 then ('0' as int + (i - 52)) as char
    else if i == 62 then '+'
    else '/'
  }

  /** The value of an alphabet character; `None` for any other character, `=` included. */
  function IndexOf(c: char): (r: Option<sextet>)
    ensures r.Some? ==> CharOf(r.value) == c
    ensures c == Pad ==> r.None?
  {
    if 'A' <= c <= 'Z' then Some(c as int - 'A' as int)
    else if 'a' <= c <= 'z' then Some(c as int - 'a' as int + 26)
    else if '0' <= c <= '9' then Some(c as int - '0' as int + 52)
    else if c == '+' then Some(62)
    else if c == '/' then Some(63)
    else None
  }

  lemma IndexOfCharOf(i: sextet)
    ensures IndexOf(CharOf(i)) == Some(i)
  {
  }

  /** The four sextets of three bytes, most significant bits first. */
  function Split(b0: byte, b1: byte, b2: byte): seq<sextet> {
    [b0 / 4, (b0 % 4) * 16 + b1 / 16, (b1 % 16) * 4 + b2 / 64, b2 % 64]
  }

  function Chars(s: seq<sextet>): (cs: string)
    ensures |cs| == |s|
  {
    seq(|s|, i requires 0 <= i < |s| => CharOf(s[i]))
  }

  /** Every character is in the alphabet or is the pad character. */
  ghost predicate InAlphabet(s: string) {
    forall i :: 0 <= i < |s| ==> s[i] == Pad || IndexOf(s[i]).Some?
  }

  lemma CharsInAlphabet(q: seq<sextet>)
    ensures InAlphabet(Chars(q))
  {
    forall i | 0 <= i < |q| ensures IndexOf(Chars(q)[i]).Some? {
      IndexOfCharOf(q[i]);
    }
  }

  lemma AppendInAlphabet(a: string, b: string)
    requires InAlphabet(a) && InAlphabet(b)
    ensures InAlphabet(a + b)
  {
    forall i | 0 <= i < |a + b| ensures (a + b)[i] == Pad || IndexOf((a + b)[i]).Some? {
      if i >= |a| {
        assert (a + b)[i] == b[i - |a|];
      }
    }
  }

  /**
   * Encoding: whole groups of three bytes become four characters; a final
   * group of one or two bytes is zero-filled and padded with `==` or `=`.
   */
  function Encode(b: seq<byte>): (e: string)
    ensures InAlphabet(e)
    decreases |b|
  {
    if |b| == 0 then ""
    else if |b| == 1 then
      var c := Chars(Split(b[0], 0, 0)[..2]);
      CharsInAlphabet(Split(b[0], 0, 0)[..2]);
      AppendInAlphabet(c, [Pad, Pad]);
      c + [Pad, Pad]
    else if |b| == 2 then
      var c := Chars(Split(b[0], b[1], 0)[..3]);
      CharsInAlphabet(Split(b[0], b[1], 0)[..3]);
      AppendInAlphabet(c, [Pad]);
      c + [Pad]
    else
      var c := Chars(Split(b[0], b[1], b[2]));
      CharsInAlphabet(Split(b[0], b[1], b[2]));
      AppendInAlphabet(c, Encode(b[3..]));
      c + Encode(b[3..])
  }

  /** The first, second and third byte a quantum's sextets carry. */
  function Byte0(i0: sextet, i1: sextet): byte { i0 * 4 + i1 / 16 }
  function Byte1(i1: sextet, i2: sextet): byte { (i1 % 16) * 16 + i2 / 4 }
  function Byte2(i2: sextet, i3: sextet): byte { (i2 % 4) * 64 + i3 }

  /**
   * One four-character quantum. Padding (`xx==` or `xxx=`) is accepted only
   * in the `last` one; the unused low bits before padding are not checked.
   */
  function DecodeQuantum(q: string, last: bool): (r: Option<seq<byte>>)
    requires |q| == 4
    ensures r.Some? ==> InAlphabet(q)
  {
    match (IndexOf(q[0]), IndexOf(q[1]))
    case (Some(i0), Some(i1)) =>
      if last && q[2] == Pad && q[3] == Pad then Some([Byte0(i0, i1)])
      else
        (match IndexOf(q[2])
         case None => None
         case Some(i2) =>
           if last && q[3] == Pad then Some([Byte0(i0, i1), Byte1(i1, i2)])
           else
             match IndexOf(q[3])
             case None => None
             case Some(i3) => Some([Byte0(i0, i1), Byte1(i1, i2), Byte2(i2, i3)]))
    case _ => None
  }

  /** Decoding: quanta decoded in turn; a length that is not a multiple of four fails. */
  function Decode(s: string): (r: Option<seq<byte>>)
    ensures r.Some? ==> InAlphabet(s)
    decreases |s|
  {
    if |s| == 0 then Some([])
    else if |s| < 4 then None
    else
      match DecodeQuantum(s[..4], |s| == 4)
      case None => None
      case Some(head) =>
        match Decode(s[4..])
        case None => None
        case Some(tail) =>
          AppendInAlphabet(s[..4], s[4..]);
          assert s[..4] + s[4..] == s;
          Some(head + tail)
  }

  /** The bytes come back out of their sextets. */
  lemma SplitJoins(b0: byte, b1: byte, b2: byte)
    ensures var q := Split(b0, b1, b2);
            && Byte0(q[0], q[1]) == b0
            && Byte1(q[1], q[2]) == b1
            && Byte2(q[2], q[3]) == b2
  {
  }

  /** A quantum of four alphabet characters decodes to the three bytes it encodes. */
  lemma DecodeWholeQuantum(b0: byte, b1: byte, b2: byte, last: bool)
    ensures DecodeQuantum(Chars(Split(b0, b1, b2)), last) == Some([b0, b1, b2])
  {
    var q := Split(b0, b1, b2);
    var c := Chars(q);
    SplitJoins(b0, b1, b2);
    IndexOfCharOf(q[0]);
    IndexOfCharOf(q[1]);
    IndexOfCharOf(q[2]);
    IndexOfCharOf(q[3]);
    assert IndexOf(c[2]) == Some(q[2]) && IndexOf(c[3]) == Some(q[3]);
  }

  /** A final `xxx=` quantum decodes to its two bytes. */
  lemma DecodeTwoByteQuantum(b0: byte, b1: byte)
    ensures DecodeQuantum(Chars(Split(b0, b1, 0)[..3]) + [Pad], true) == Some([b0, b1])
  {
    var q := Split(b0, b1, 0);
    var c := Chars(q[..3]) + [Pad];
    SplitJoins(b0, b1, 0);
    IndexOfCharOf(q[0]);
    IndexOfCharOf(q[1]);
    IndexOfCharOf(q[2]);
    assert c[0] == CharOf(q[0]) && c[1] == CharOf(q[1]) && c[2] == CharOf(q[2]) && c[3] == Pad;
    assert IndexOf(c[2]) == Some(q[2]);
  }

  /** A final `xx==` quantum decodes to its one byte. */
  lemma DecodeOneByteQuantum(b0: byte)
    ensures DecodeQuantum(Chars(Split(b0, 0, 0)[..2]) + [Pad, Pad], true) == Some([b0])
  {
    var q := Split(b0, 0, 0);
    var c := Chars(q[..2]) + [Pad, Pad];
    SplitJoins(b0, 0, 0);
    IndexOfCharOf(q[0]);
    IndexOfCharOf(q[1]);
    assert c[0] == CharOf(q[0]) && c[1] == CharOf(q[1]) && c[2] == Pad && c[3] == Pad;
  }

  /** Four characters for every three bytes or part of three. */
  lemma {:induction false} EncodeLength(b: seq<byte>)
    ensures |Encode(b)| == 4 * ((|b| + 2) / 3)
    decreases |b|
  {
    if |b| >= 3 {
      EncodeLength(b[3..]);
    }
  }

  /** Decoding a quantum followed by more quanta. */
  lemma DecodeCons(head: string, rest: string, hb: seq<byte>, rb: seq<byte>)
    requires |head| == 4
    requires DecodeQuantum(head, |rest| == 0) == Some(hb)
    requires Decode(rest) == Some(rb)
    ensures Decode(head + rest) == Some(hb + rb)
  {
    var s := head + rest;
    assert s[..4] == head && s[4..] == rest;
  }

  /** The encoding of a final single byte decodes back to it. */
  lemma DecodeEncodeOne(b: seq<byte>)
    requires |b| == 1
    ensures Decode(Encode(b)) == Some(b)
  {
    var s := Chars(Split(b[0], 0, 0)[..2]) + [Pad, Pad];
    assert Encode(b) == s + "";
    DecodeOneByteQuantum(b[0]);
    DecodeCons(s, "", [b[0]], []);
    assert [b[0]] + [] == b;
  }

  /** The encoding of a final pair of bytes decodes back to it. */
  lemma DecodeEncodeTwo(b: seq<byte>)
    requires |b| == 2
    ensures Decode(Encode(b)) == Some(b)
  {
    var s := Chars(Split(b[0], b[1], 0)[..3]) + [Pad];
    assert Encode(b) == s + "";
    DecodeTwoByteQuantum(b[0], b[1]);
    DecodeCons(s, "", [b[0], b[1]], []);
    assert [b[0], b[1]] + [] == b;
  }

  /** Three or more bytes encode as their first quantum followed by the encoding of the rest. */
  lemma EncodeCons(b: seq<byte>)
    requires |b| >= 3
    ensures Encode(b) == Chars(Split(b[0], b[1], b[2])) + Encode(b[3..])
  {
  }

  /** A whole quantum in front of any decodable rest decodes to its three bytes in front of the rest's. */
  lemma DecodeQuantumCons(b0: byte, b1: byte, b2: byte, rest: string, rb: seq<byte>)
    requires Decode(rest) == Some(rb)
    ensures Decode(Chars(Split(b0, b1, b2)) + rest) == Some([b0, b1, b2] + rb)
  {
    DecodeWholeQuantum(b0, b1, b2, |rest| == 0);
    DecodeCons(Chars(Split(b0, b1, b2)), rest, [b0, b1, b2], rb);
  }

  lemma TakeThree(b: seq<byte>)
    requires |b| >= 3
    ensures [b[0], b[1], b[2]] + b[3..] == b
  {
  }

  /** Decoding an encoding gives back the bytes. */
  lemma {:induction false} DecodeEncode(b: seq<byte>)
    ensures Decode(Encode(b)) == Some(b)
    decreases |b|
  {
    if |b| == 1 {
      DecodeEncodeOne(b);
    } else if |b| == 2 {
      DecodeEncodeTwo(b);
    } else if |b| >= 3 {
      var tail := b[3..];
      DecodeEncode(tail);
      EncodeCons(b);
      DecodeQuantumCons(b[0], b[1], b[2], Encode(tail), tail);
      TakeThree(b);
    }
  }
}

=== FILE: client_forms.dfy ===
/**
 * The browser's checks before it sends a position, and how it takes in the
 * result of a position-list refresh.
 */
module ClientForms {
  import opened Wrappers
  import opened Valuation

  /** The one instrument the client trades. */
  const Instrument := "BTCUSDT"

  const FetchFailedNotice := "Failed to fetch positions"

  datatype FormError = InvalidEntry | InvalidQuantity | PositionNotFound

  /** The JSON body the client sends to create or update a position. */
  datatype Draft = Draft(symbol: string, quantity: real, kind: string, entry: real, date: string)

  /** `!(isNaN(v) || v <= 0)` for a `parseFloat` result; `None` is NaN. */
  predicate Positive(v: Option<real>) {
    v.Some? && v.value > 0.0
  }

  /**
   * The new-position form: the entry is checked first, then the quantity;
   * only when both are positive is a body built, for the one instrument and
   * stamped with the current time `now`.
   */
  function ValidateNew(entry: Option<real>, quantity: Option<real>, kind: string, now: string): (r: Result<Draft, FormError>)
    ensures r.Ok? <==> Positive(entry) && Positive(quantity)
    ensures r == Err(InvalidEntry) <==> !Positive(entry)
    ensures r == Err(InvalidQuantity) <==> Positive(entry) && !Positive(quantity)
    ensures r.Ok? ==> r.value == Draft(Instrument, quantity.value, kind, entry.value, now)
  {
    if !Positive(entry) then Err(InvalidEntry)
    else if !Positive(quantity) then Err(InvalidQuantity)
    else Ok(Draft(Instrument, quantity.value, kind, entry.value, now))
  }

  /** `positions.find(p => p.id === id)`: the index of the first position with that id. */
  function FindById(ps: seq<Holding>, id: string): (r: Option<nat>)
    ensures r.Some? ==> r.value < |ps| && ps[r.value].id == id
    ensures r.Some? ==> forall j :: 0 <= j < r.value ==> ps[j].id != id
    ensures r.None? ==> forall j :: 0 <= j < |ps| ==> ps[j].id != id
    decreases |ps|
  {
    if |ps| == 0 then None
    else if ps[0].id == id then Some(0)
    else
      match FindById(ps[1..], id)
      case None => None
      case Some(i) => Some(i + 1)
  }

  /**
   * The edit form: the same two checks, then the position must be in the
   * list; the body keeps that position's original date and fixes the
   * symbol to the one instrument.
   */
  function ValidateEdit(id: string, entry: Option<real>, quantity: Option<real>, kind: string, ps: seq<Holding>): (r: Result<Draft, FormError>)
    ensures r.Ok? <==> Positive(entry) && Positive(quantity) && exists i :: 0 <= i < |ps| && ps[i].id == id
    ensures r == Err(InvalidEntry) <==> !Positive(entry)
    ensures r == Err(InvalidQuantity) <==> Positive(entry) && !Positive(quantity)
    ensures r.Ok? ==> && r.value.symbol == Instrument && r.value.kind == kind
                      && r.value.quantity == quantity.value && r.value.entry == entry.value
    ensures r.Ok? ==> exists i :: && 0 <= i < |ps| && ps[i].id == id
                                  && (forall j :: 0 <= j < i ==> ps[j].id != id)
                                  && r.value.date == ps[i].date
  {
    if !Positive(entry) then Err(InvalidEntry)
    else if !Positive(quantity) then Err(InvalidQuantity)
    else
      match FindById(ps, id)
      case None => Err(PositionNotFound)
      case Some(i) => Ok(Draft(Instrument, quantity.value, kind, entry.value, ps[i].date))
  }

  /** What a list request came back with: a response (its status and its parsed body, or the parse error), or a network error. */
  datatype Reply = Responded(status: int, payload: Result<seq<Holding>, string>) | NetworkFailure(message: string)

  /** The list the client shows after a refresh, and the notice it raised if any. */
  datatype Refresh = Refresh(positions: seq<Holding>, notice: Option<string>)

  /** A reply that replaces the list: a 2xx status with a body that parsed. */
  predicate Good(reply: Reply) {
    reply.Responded? && 200 <= reply.status <= 299 && reply.payload.Ok?
  }

  /**
   * `fetchPositions`: a good reply replaces the list; anything else leaves
   * the list as it was and raises a notice with the error's message.
   */
  function ApplyFetch(current: seq<Holding>, reply: Reply): (r: Refresh)
    ensures r.notice.None? <==> Good(reply)
    ensures Good(reply) ==> r.positions == reply.payload.value
    ensures !Good(reply) ==> r.positions == current
    ensures reply.Responded? && !(200 <= reply.status <= 299) ==> r.notice == Some(FetchFailedNotice)
    ensures reply.NetworkFailure? ==> r.notice == Some(reply.message)
    ensures reply.Responded? && 200 <= reply.status <= 299 && reply.payload.Err? ==> r.notice == Some(reply.payload.error)
  {
    match reply
    case NetworkFailure(m) => Refresh(current, Some(m))
    case Responded(status, payload) =>
      if !(200 <= status <= 299) then Refresh(current, Some(FetchFailedNotice))
      else
        match payload
        case Err(m) => Refresh(current, Some(m))
        case Ok(list) => Refresh(list, None)
  }

  /** The list after a series of refreshes, applied in order. */
  function Refreshed(initial: seq<Holding>, replies: seq<Reply>): seq<Holding>
    decreases |replies|
  {
    if |replies| == 0 then initial
    else ApplyFetch(Refreshed(initial, replies[..|replies| - 1]), replies[|replies| - 1]).positions
  }

  /** The body of the last good reply, if any. */
  function LastGood(replies: seq<Reply>): Option<seq<Holding>>
    decreases |replies|
  {
    if |replies| == 0 then None
    else if Good(replies[|replies| - 1]) then Some(replies[|replies| - 1].payload.value)
    else LastGood(replies[..|replies| - 1])
  }

  /**
   * Failed refreshes never clear or alter what is shown: after any series of
   * refreshes the list is the body of the last good one, or the initial list
   * when none was good.
   */
  lemma {:induction false} RefreshedIsLastGood(initial: seq<Holding>, replies: seq<Reply>)
    ensures Refreshed(initial, replies) == (match LastGood(replies) case None => initial case Some(l) => l)
    decreases |replies|
  {
    if |replies| > 0 {
      RefreshedIsLastGood(initial, replies[..|replies| - 1]);
    }
  }
}

=== FILE: express_server.dfy ===
/**
 * The always-on hosting shape: one process, a global CORS middleware, and
 * the five `/positions` routes over the table.
 */
module ExpressServer {
  import opened Wrappers
  import opened PositionStore
  import opened PositionApi

  /** The headers the global middleware sets on every response before any route runs. */
  const CorsHeaders: map<string, string> := map[
    AllowOrigin := "*",
    "Access-Control-Allow-Headers" := "Content-Type,x-api-key",
    "Access-Control-Allow-Methods" := "GET,POST,PUT,DELETE,OPTIONS"]

  function Send(status: int, body: Body): Response {
    Response(status, CorsHeaders, body)
  }

  /** `GET /positions` */
  function ListPositions(t: Table, fault: Option<string>): (x: Exchange)
    ensures ListsTable(t, fault, x)
    ensures AllowsAnyOrigin(x.response)
  {
    match fault
    case Some(m) => Exchange(Send(500, ErrorBody(m)), t)
    case None => Exchange(Send(200, Many(Scan(t))), t)
  }

  /** `GET /positions/:id` */
  function GetPosition(t: Table, id: string, fault: Option<string>): (x: Exchange)
    ensures GetsById(t, id, fault, x)
    ensures AllowsAnyOrigin(x.response)
  {
    match fault
    case Some(m) => Exchange(Send(500, ErrorBody(m)), t)
    case None =>
      match Get(t, id)
      case None => Exchange(Send(404, MessageBody(NotFoundMessage)), t)
      case Some(item) => Exchange(Send(200, One(item)), t)
  }

  /** `POST /positions`: validate, then put the item under the fresh id. */
  function CreatePosition(t: Table, f: Fields, newId: string, fault: Option<string>): (x: Exchange)
    ensures Creates(t, f, newId, fault, x)
    ensures AllowsAnyOrigin(x.response)
  {
    if !HasRequiredFields(f) then Exchange(Send(400, ErrorBody(MissingFieldsError)), t)
    else
      var item := ItemOf(newId, f);
      match fault
      case Some(m) => Exchange(Send(500, ErrorBody(m)), t)
      case None => Exchange(Send(201, One(item)), Put(t, item))
  }

  /** `PUT /positions/:id`: overwrite the five attributes and answer with all of them. */
  function ReplacePosition(t: Table, id: string, f: Fields, fault: Option<string>): (x: Exchange)
    ensures Replaces(t, id, f, fault, x)
    ensures AllowsAnyOrigin(x.response)
  {
    match fault
    case Some(m) => Exchange(Send(500, ErrorBody(m)), t)
    case None =>
      var u := Update(t, id, f);
      match u.attributes
      case Some(a) => Exchange(Send(200, One(a)), u.table)
      case None => Exchange(Send(200, NoBody), u.table)
  }

  /** `DELETE /positions/:id`: no existence check. */
  function DeletePosition(t: Table, id: string, fault: Option<string>): (x: Exchange)
    ensures Deletes(t, id, fault, x)
    ensures AllowsAnyOrigin(x.response)
  {
    match fault
    case Some(m) => Exchange(Send(500, ErrorBody(m)), t)
    case None => Exchange(Send(200, DeletedBody(id)), Delete(t, id))
  }

  /** The two GET routes: the list without an id, the single item with one. */
  function GetRoutes(id: Option<string>, t: Table, fault: Option<string>): Exchange {
    match id
    case None => ListPositions(t, fault)
    case Some(i) => GetPosition(t, i, fault)
  }

  /**
   * The middleware, then the routes in registration order. `fault` is the
   * table's behaviour for the one call the route makes; `newId` is what
   * `uuidv4()` returns. Express hands HEAD to the GET routes and Node drops
   * the body of the answer.
   */
  function Serve(req: Request, t: Table, newId: string, fault: Option<string>): (x: Exchange)
    ensures AllowsAnyOrigin(x.response)
    ensures x.response.headers == CorsHeaders
    ensures req.verb == OPTIONS ==> x.table == t && Answers(x, 200, StatusText("OK"))
    ensures req.verb == GET && IdParam(req).None? ==> ListsTable(t, fault, x)
    ensures req.verb == GET && IdParam(req).Some? ==> GetsById(t, IdParam(req).value, fault, x)
    ensures req.verb == Head ==> x.table == t && x.response.body == NoBody && (x.response.status == 500 <==> fault.Some?)
    ensures req.verb == Head && fault.None? ==>
              x.response.status == (if IdParam(req).Some? && IdParam(req).value !in t then 404 else 200)
    ensures req.verb == POST && IdParam(req).None? ==> Creates(t, BodyFields(req), newId, fault, x)
    ensures req.verb == PUT && IdParam(req).Some? ==> Replaces(t, IdParam(req).value, BodyFields(req), fault, x)
    ensures req.verb == DELETE && IdParam(req).Some? ==> Deletes(t, IdParam(req).value, fault, x)
    ensures x.response.status == 404 && x.response.body == CannotRoute <==>
              !(req.verb in {OPTIONS, GET, Head}
                || (req.verb == POST && IdParam(req).None?)
                || (req.verb in {PUT, DELETE} && IdParam(req).Some?))
    ensures x.response.body == CannotRoute ==> x.table == t
  {
    if req.verb == OPTIONS then Exchange(Send(200, StatusText("OK")), t)
    else if req.verb == Head then
      var g := GetRoutes(IdParam(req), t, fault);
      Exchange(g.response.(body := NoBody), g.table)
    else
      match (req.verb, IdParam(req))
      case (GET, id) => GetRoutes(id, t, fault)
      case (POST, None) => CreatePosition(t, BodyFields(req), newId, fault)
      case (PUT, Some(id)) => ReplacePosition(t, id, BodyFields(req), fault)
      case (DELETE, Some(id)) => DeletePosition(t, id, fault)
      case _ => Exchange(Send(404, CannotRoute), t)
  }
}

=== FILE: firehose.dfy ===
/**
 * The delivery-stream record transformer: every incoming record is decoded
 * from Base 64 and parsed as JSON; a record that gets through is
 * re-serialised with a trailing newline, re-encoded and tagged with the day
 * it was processed, and one that does not is passed back unchanged and
 * marked as failed. JSON parsing and serialisation are parameters.
 */
module Firehose {
  import opened Wrappers
  import opened Base64

  /** A calendar date in UTC. */
  datatype Date = Date(year: int, month: int, day: int)

  /** Four-digit years, months 1–12 and days 1–31. */
  predicate ValidDate(d: Date) {
    1000 <= d.year <= 9999 && 1 <= d.month <= 12 && 1 <= d.day <= 31
  }

  /** What the UTC clock can read. */
  type UtcDate = d: Date | ValidDate(d) witness Date(1970, 1, 1)

  function Pow10(n: nat): nat {
    if n == 0 then 1 else 10 * Pow10(n - 1)
  }

  function DigitChar(d: nat): char
    requires d < 10
  {
    ('0' as int + d) as char
  }

  function DigitValue(c: char): Option<nat> {
    if '0' <= c <= '9' then Some(c as int - '0' as int) else None
  }

  /** `n` in decimal, zero-padded to `width` digits. */
  function Digits(n: nat, width: nat): (s: string)
    requires n < Pow10(width)
    ensures |s| == width
    decreases width
  {
    if width == 0 then "" else Digits(n / 10, width - 1) + [DigitChar(n % 10)]
  }

  /** The number a string of decimal digits spells; `None` if any character is not a digit. */
  function ParseDigits(s: string): Option<nat>
    decreases |s|
  {
    if |s| == 0 then Some(0)
    else
      match (ParseDigits(s[..|s| - 1]), DigitValue(s[|s| - 1]))
      case (Some(v), Some(d)) => Some(10 * v + d)
      case _ => None
  }

  lemma {:induction false} ParseDigitsOfDigits(n: nat, width: nat)
    requires n < Pow10(width)
    ensures ParseDigits(Digits(n, width)) == Some(n)
    decreases width
  {
    if width > 0 {
      var q, d := n / 10, n % 10;
      var s := Digits(n, width);
      assert s == Digits(q, width - 1) + [DigitChar(d)];
      assert s[..|s| - 1] == Digits(q, width - 1);
      assert DigitValue(s[|s| - 1]) == Some(d);
      ParseDigitsOfDigits(q, width - 1);
      assert 10 * q + d == n;
    }
  }

  /** `strftime('%Y-%m-%d')`: ten characters, dashes at positions 4 and 7. */
  function FormatDate(d: UtcDate): (s: string)
    ensures |s| == 10 && s[4] == '-' && s[7] == '-'
  {
    Digits(d.year, 4) + "-" + Digits(d.month, 2) + "-" + Digits(d.day, 2)
  }

  /** Reads a `YYYY-MM-DD` string back into a date. */
  function ParseDate(s: string): Option<Date> {
    if |s| != 10 || s[4] != '-' || s[7] != '-' then None
    else
      match (ParseDigits(s[..4]), ParseDigits(s[5..7]), ParseDigits(s[8..]))
      case (Some(y), Some(m), Some(d)) => Some(Date(y, m, d))
      case _ => None
  }

  /** A dashed string whose three fields read as numbers reads as the date they spell. */
  lemma ParseDashed(y: string, m: string, dd: string, year: nat, month: nat, day: nat)
    requires |y| == 4 && |m| == 2 && |dd| == 2
    requires ParseDigits(y) == Some(year) && ParseDigits(m) == Some(month) && ParseDigits(dd) == Some(day)
    ensures ParseDate(y + "-" + m + "-" + dd) == Some(Date(year, month, day))
  {
    var s := y + "-" + m + "-" + dd;
    assert s[..4] == y;
    assert s[5..7] == m;
    assert s[8..] == dd;
  }

  /** The partition key names the processing day unambiguously. */
  lemma ParseFormatDate(d: UtcDate)
    ensures ParseDate(FormatDate(d)) == Some(d)
  {
    ParseDigitsOfDigits(d.year, 4);
    ParseDigitsOfDigits(d.month, 2);
    ParseDigitsOfDigits(d.day, 2);
    ParseDashed(Digits(d.year, 4), Digits(d.month, 2), Digits(d.day, 2), d.year, d.month, d.day);
  }

  /** An incoming record: its id and its Base 64 payload. */
  datatype InRecord = InRecord(recordId: string, data: string)

  /** The `result` field of an outgoing record. */
  datatype RecordResult = Ok | ProcessingFailed

  /**
   * An outgoing record; `processingDate` is `metadata.partitionKeys.processing_date`,
   * and a record without metadata has `None`.
   */
  datatype OutRecord = OutRecord(recordId: string, result: RecordResult, data: string, processingDate: Option<string>)

  const Newline: byte := 10

  /**
   * One record's `try` block and its `except` branch. `parse` is UTF-8
   * decoding followed by `json.loads` (`None` when either raises); `dump`
   * is `json.dumps` followed by UTF-8 encoding; `today` is the UTC date the
   * clock reads while the record is processed.
   */
  function Transform<J>(r: InRecord, parse: seq<byte> -> Option<J>, dump: J -> seq<byte>, today: UtcDate): (o: OutRecord)
    ensures o.recordId == r.recordId
    ensures o.result.Ok? <==> Decode(r.data).Some? && parse(Decode(r.data).value).Some?
    ensures o.result.Ok? ==>
              && Decode(o.data) == Some(dump(parse(Decode(r.data).value).value) + [Newline])
              && o.processingDate == Some(FormatDate(today))
    ensures o.result == ProcessingFailed ==> o.data == r.data && o.processingDate == None
  {
    match Decode(r.data)
    case None => OutRecord(r.recordId, ProcessingFailed, r.data, None)
    case Some(payload) =>
      match parse(payload)
      case None => OutRecord(r.recordId, ProcessingFailed, r.data, None)
      case Some(doc) =>
        var line := dump(doc) + [Newline];
        DecodeEncode(line);
        OutRecord(r.recordId, RecordResult.Ok, Encode(line), Some(FormatDate(today)))
  }

  /** `xs` mapped element by element, the element at position `i` through `f(_, i)`. */
  function MapIndexed<A, B>(xs: seq<A>, f: (A, nat) -> B): seq<B>
    decreases |xs|
  {
    if |xs| == 0 then []
    else
      var n := |xs| - 1;
      MapIndexed(xs[..n], f) + [f(xs[n], n)]
  }

  /** The indexed map keeps the length and puts `f(xs[i], i)` at position `i`. */
  lemma {:induction false} MapIndexedPointwise<A, B>(xs: seq<A>, f: (A, nat) -> B)
    ensures |MapIndexed(xs, f)| == |xs|
    ensures forall i :: 0 <= i < |xs| ==> MapIndexed(xs, f)[i] == f(xs[i], i)
    decreases |xs|
  {
    if |xs| > 0 {
      var n := |xs| - 1;
      MapIndexedPointwise(xs[..n], f);
      assert forall i :: 0 <= i < n ==> xs[..n][i] == xs[i];
    }
  }

  /**
   * `lambda_handler`: one output record per input record, in the same order,
   * each depending only on its own input record and the date read while it
   * was processed (`clock(i)` for the record at position `i`); a failing
   * record leaves the others as they would be without it.
   */
  method LambdaHandler<J>(records: seq<InRecord>, parse: seq<byte> -> Option<J>, dump: J -> seq<byte>, clock: nat -> UtcDate)
    returns (output: seq<OutRecord>)
    ensures |output| == |records|
    ensures forall i :: 0 <= i < |records| ==> output[i] == Transform(records[i], parse, dump, clock(i))
  {
    var step := (r: InRecord, k: nat) => Transform(r, parse, dump, clock(k));
    output := [];
    for i := 0 to |records|
      invariant output == MapIndexed(records[..i], step)
    {
      assert records[..i + 1][..i] == records[..i];
      output := output + [step(records[i], i)];
    }
    assert records[..|records|] == records;
    MapIndexedPointwise(records, step);
  }
}

=== FILE: hosting.dfy ===
/**
 * Properties across the two hosting shapes and across sequences of
 * requests: the shapes agree on every logical operation, the table stays
 * keyed by id, and the create/get/delete round trips behave as promised.
 */
module Hosting {
  import opened Wrappers
  import opened PositionStore
  import opened PositionApi
  import ExpressServer
  import LambdaCrud
  import LambdaRead

  /** The five logical operations: list, get by id, create, replace, delete. */
  predicate LogicalOperation(req: Request) {
    || req.verb == GET
    || (req.verb == POST && IdParam(req).None?)
    || (req.verb in {PUT, DELETE} && IdParam(req).Some?)
  }

  /**
   * The per-operation shape as deployed: the gateway in front of it sends
   * GET requests to the read handler and every other request to the crud
   * handler.
   */
  function Routed(req: Request, t: Table, newId: string, fault: Option<string>): (x: Exchange)
    ensures AllowsAnyOrigin(x.response)
    ensures req.verb == GET ==> x.table == t && x.response.status != 405
    ensures req.verb != GET ==> (x.response.status == 405 <==> !LambdaCrud.Handles(req))
  {
    if req.verb == GET then LambdaRead.Handler(req, t, fault)
    else LambdaCrud.Handler(req, t, newId, fault)
  }

  /** The same routing in front of the crud handler that unmarshalls its PUT answer. */
  function RoutedUnmarshalled(req: Request, t: Table, newId: string, fault: Option<string>): Exchange {
    if req.verb == GET then LambdaRead.Handler(req, t, fault)
    else LambdaCrud.UnmarshalledHandler(req, t, newId, fault)
  }

  /** Two exchanges agree when status, body and resulting table agree (headers may differ). */
  ghost predicate Agree(a: Exchange, b: Exchange) {
    a.table == b.table && a.response.status == b.response.status && a.response.body == b.response.body
  }

  /** A list-all answer is determined by the table and the fault. */
  lemma {:induction false} ListingIsUnique(t: Table, fault: Option<string>, a: Exchange, b: Exchange)
    requires ListsTable(t, fault, a) && ListsTable(t, fault, b)
    ensures Agree(a, b)
  {
    if fault.None? {
      var ia, ib := a.response.body.items, b.response.body.items;
      forall it | it in ia ensures it in ib {
        var k :| k in t && t[k] == it;
      }
      forall it | it in ib ensures it in ia {
        var k :| k in t && t[k] == it;
      }
      assert ia == ib;
    }
  }

  /**
   * Both shapes give the same status and the same table for the same
   * logical operation, whatever the table, the fresh id and the table's
   * fault, and the same body for every operation but replace.
   */
  lemma ShapesAgree(req: Request, t: Table, newId: string, fault: Option<string>)
    requires LogicalOperation(req)
    ensures var e, l := ExpressServer.Serve(req, t, newId, fault), Routed(req, t, newId, fault);
            e.table == l.table && e.response.status == l.response.status
    ensures req.verb != PUT ==> Agree(ExpressServer.Serve(req, t, newId, fault), Routed(req, t, newId, fault))
    ensures AllowsAnyOrigin(ExpressServer.Serve(req, t, newId, fault).response)
    ensures AllowsAnyOrigin(Routed(req, t, newId, fault).response)
  {
    var e, l := ExpressServer.Serve(req, t, newId, fault), Routed(req, t, newId, fault);
    if req.verb == GET && IdParam(req).None? {
      ListingIsUnique(t, fault, e, l);
    }
  }

  /**
   * A successful replace is where the shapes part: the server answers with
   * the plain item, the crud handler with the same item in DynamoDB's typed
   * form.
   */
  lemma PutBodiesDiffer(req: Request, t: Table, newId: string)
    requires req.verb == PUT && IdParam(req).Some?
    ensures var item := ItemOf(IdParam(req).value, BodyFields(req));
            && ExpressServer.Serve(req, t, newId, None).response.body == One(item)
            && Routed(req, t, newId, None).response.body == TypedAttributes(item)
    ensures ExpressServer.Serve(req, t, newId, None).response.body != Routed(req, t, newId, None).response.body
  {
  }

  /** With the PUT answer unmarshalled, the shapes agree on every logical operation, body included. */
  lemma ShapesAgreeUnmarshalled(req: Request, t: Table, newId: string, fault: Option<string>)
    requires LogicalOperation(req)
    ensures Agree(ExpressServer.Serve(req, t, newId, fault), RoutedUnmarshalled(req, t, newId, fault))
  {
    var e, l := ExpressServer.Serve(req, t, newId, fault), RoutedUnmarshalled(req, t, newId, fault);
    if req.verb == GET && IdParam(req).None? {
      ListingIsUnique(t, fault, e, l);
    }
  }

  /** The server answers HEAD with the status and table of the matching GET, and no body. */
  lemma HeadMirrorsGet(req: Request, t: Table, newId: string, fault: Option<string>)
    requires req.verb == Head
    ensures var h, g := ExpressServer.Serve(req, t, newId, fault), ExpressServer.Serve(req.(verb := GET), t, newId, fault);
            && h.response.status == g.response.status
            && h.table == g.table
            && h.response.body == NoBody
  {
  }

  /**
   * Off the logical operations the shapes part ways: a preflight is answered
   * 200 by the server's middleware but 405 by the crud handler.
   */
  lemma PreflightDiffers(req: Request, t: Table, newId: string, fault: Option<string>)
    requires req.verb == OPTIONS
    ensures ExpressServer.Serve(req, t, newId, fault).response.status == 200
    ensures Routed(req, t, newId, fault).response.status == 405
  {
  }

  /** Neither shape ever stores an item under a key other than its own id. */
  lemma KeepsWellKeyed(req: Request, t: Table, newId: string, fault: Option<string>)
    requires WellKeyed(t)
    ensures WellKeyed(ExpressServer.Serve(req, t, newId, fault).table)
    ensures WellKeyed(Routed(req, t, newId, fault).table)
  {
  }

  /** In a well-keyed table, a listing never holds two items with the same id. */
  lemma ListedIdsAreUnique(t: Table, fault: Option<string>, x: Exchange)
    requires WellKeyed(t) && ListsTable(t, fault, x) && fault.None?
    ensures forall a, b :: a in x.response.body.items && b in x.response.body.items && a.id == b.id ==> a == b
  {
  }

  /**
   * Create then get: with an id not yet in the table (as `FreshId` supplies)
   * the table grows by exactly one item, and reading that id back returns
   * the payload plus the id.
   */
  lemma CreateThenGet(t: Table, f: Fields, id: string)
    requires HasRequiredFields(f) && id !in t
    ensures var created := ExpressServer.CreatePosition(t, f, id, None);
            && created.response.status == 201
            && |created.table| == |t| + 1
            && Answers(ExpressServer.GetPosition(created.table, id, None), 200, One(ItemOf(id, f)))
  {
    var created := ExpressServer.CreatePosition(t, f, id, None);
    CardinalityOfInsert(t, created.table, id);
  }

  /** A create with the id the fresh-id oracle supplies never overwrites an item. */
  lemma CreateWithFreshIdThenGet(t: Table, f: Fields)
    requires HasRequiredFields(f)
    ensures var id := FreshId(t);
            var created := ExpressServer.CreatePosition(t, f, id, None);
            && created.response.status == 201
            && |created.table| == |t| + 1
            && (forall k :: k in t ==> k in created.table && created.table[k] == t[k])
            && Answers(ExpressServer.GetPosition(created.table, id, None), 200, One(ItemOf(id, f)))
  {
    CreateThenGet(t, f, FreshId(t));
  }

  /** Adding one new key to a map adds exactly one to its size. */
  lemma CardinalityOfInsert(t: Table, t': Table, id: string)
    requires id !in t && t'.Keys == t.Keys + {id}
    ensures |t'| == |t| + 1
  {
    assert |t'.Keys| == |t.Keys| + 1;
  }

  /** Deleting twice answers and leaves the table exactly as deleting once. */
  lemma DeleteIsIdempotent(t: Table, id: string)
    ensures var once := ExpressServer.DeletePosition(t, id, None);
            ExpressServer.DeletePosition(once.table, id, None) == once
  {
  }

  /** A get on a just-deleted id is a 404. */
  lemma GetAfterDeleteIsNotFound(t: Table, id: string)
    ensures var gone := ExpressServer.DeletePosition(t, id, None).table;
            Answers(ExpressServer.GetPosition(gone, id, None), 404, MessageBody(NotFoundMessage))
  {
  }
}

=== FILE: js_values.dfy ===
/**
 * The scalar JavaScript values a parsed JSON request body can carry, and the
 * truthiness test the handlers apply to them.
 */
module JsValues {

  /**
   * `Undefined` is a key the body does not have; `Compound` stands for any
   * array or object, which the handlers never look into.
   */
  datatype Value = Undefined | Null | Bool(b: bool) | Num(n: real) | Str(s: string) | Compound

  /** The falsy values a parsed JSON body can hold: `undefined`, `null`, `false`, `0` and `""`. */
  const Falsy: set<Value> := {Undefined, Null, Bool(false), Num(0.0), Str("")}

  /** JavaScript truthiness. JSON cannot produce NaN, so a number is falsy only when it is zero. */
  function Truthy(v: Value): (t: bool)
    ensures t <==> v !in Falsy
  {
    match v
    case Undefined => false
    case Null => false
    case Bool(b) => b
    case Num(n) => n != 0.0
    case Str(s) => s != ""
    case Compound => true
  }
}

=== FILE: lambda_crud.dfy ===
/**
 * The per-operation hosting shape, write side: one handler answering POST,
 * PUT and DELETE, with the CORS header set on each response it builds.
 */
module LambdaCrud {
  import opened Wrappers
  import opened PositionStore
  import opened PositionApi

  /** `res(status, body)`: only the origin header, none of the server's other CORS headers. */
  function Reply(status: int, body: Body): (r: Response)
    ensures AllowsAnyOrigin(r) && r.headers.Keys == {AllowOrigin}
    ensures r.status == status && r.body == body
  {
    Response(status, map[AllowOrigin := "*"], body)
  }

  /** The requests this handler acts on: POST, or PUT and DELETE with an id. */
  predicate Handles(event: Request) {
    event.verb == POST || (event.verb in {PUT, DELETE} && IdParam(event).Some?)
  }

  /**
   * The handler's branches. `unmarshall` says whether the attributes the
   * update returns are converted to plain JSON before they are answered.
   */
  function Dispatch(event: Request, t: Table, newId: string, fault: Option<string>, unmarshall: bool): Exchange {
    var body := BodyFields(event);
    var id := IdParam(event);
    if event.verb == POST then
      if !HasRequiredFields(body) then Exchange(Reply(400, ErrorBody(MissingFieldsError)), t)
      else
        var item := ItemOf(newId, body);
        match fault
        case Some(m) => Exchange(Reply(500, ErrorBody(m)), t)
        case None => Exchange(Reply(201, One(item)), Put(t, item))
    else if event.verb == PUT && id.Some? then
      match fault
      case Some(m) => Exchange(Reply(500, ErrorBody(m)), t)
      case None =>
        var u := Update(t, id.value, body);
        match u.attributes
        case Some(a) => Exchange(Reply(200, if unmarshall then One(a) else TypedAttributes(a)), u.table)
        case None => Exchange(Reply(200, EmptyObject), u.table)
    else if event.verb == DELETE && id.Some? then
      match fault
      case Some(m) => Exchange(Reply(500, ErrorBody(m)), t)
      case None => Exchange(Reply(200, DeletedBody(id.value)), Delete(t, id.value))
    else
      Exchange(Reply(405, ErrorBody(MethodNotAllowedError)), t)
  }

  /**
   * `handler(event)` as written: a missing body reads as `{}`; `newId` is
   * what `uuidv4()` returns and `fault` is the table's behaviour for the one
   * call the branch makes. A PUT is answered with the update's attributes as
   * the low-level client returns them, in DynamoDB's typed form.
   */
  function Handler(event: Request, t: Table, newId: string, fault: Option<string>): (x: Exchange)
    ensures AllowsAnyOrigin(x.response)
    ensures event.verb == POST ==> Creates(t, BodyFields(event), newId, fault, x)
    ensures event.verb == PUT && IdParam(event).Some? ==>
              && Upserts(t, IdParam(event).value, BodyFields(event), fault, x)
              && (fault.None? ==> x.response.body == TypedAttributes(ItemOf(IdParam(event).value, BodyFields(event))))
    ensures event.verb == DELETE && IdParam(event).Some? ==> Deletes(t, IdParam(event).value, fault, x)
    ensures x.response.status == 405 <==> !Handles(event)
    ensures !Handles(event) ==> x.table == t && x.response.body == ErrorBody(MethodNotAllowedError)
  {
    Dispatch(event, t, newId, fault, false)
  }

  /**
   * The handler with `unmarshall(result.Attributes)` in the PUT branch, as
   * the read handler does for its answers: a PUT is answered with the plain
   * item, like every other answer of either shape.
   */
  function UnmarshalledHandler(event: Request, t: Table, newId: string, fault: Option<string>): (x: Exchange)
    ensures AllowsAnyOrigin(x.response)
    ensures event.verb == POST ==> Creates(t, BodyFields(event), newId, fault, x)
    ensures event.verb == PUT && IdParam(event).Some? ==> Replaces(t, IdParam(event).value, BodyFields(event), fault, x)
    ensures event.verb == DELETE && IdParam(event).Some? ==> Deletes(t, IdParam(event).value, fault, x)
    ensures x.response.status == 405 <==> !Handles(event)
    ensures !Handles(event) ==> x.table == t && x.response.body == ErrorBody(MethodNotAllowedError)
  {
    Dispatch(event, t, newId, fault, true)
  }
}

=== FILE: lambda_read.dfy ===
/**
 * The per-operation hosting shape, read side: one handler answering both
 * get-by-id and list-all, chosen by whether the event has an id.
 */
module LambdaRead {
  import opened Wrappers
  import opened PositionStore
  import opened PositionApi

  /**
   * `res(status, body)`: only the origin header, none of the server's other
   * CORS headers. The crud handler builds its replies the same way
   * (`LambdaCrud.Reply`); each handler file carries its own copy.
   */
  function Reply(status: int, body: Body): (r: Response)
    ensures AllowsAnyOrigin(r) && r.headers.Keys == {AllowOrigin}
    ensures r.status == status && r.body == body
  {
    Response(status, map[AllowOrigin := "*"], body)
  }

  /** `handler(event)`: a single get when the id is truthy, a scan otherwise; never writes. */
  function Handler(event: Request, t: Table, fault: Option<string>): (x: Exchange)
    ensures AllowsAnyOrigin(x.response)
    ensures x.table == t
    ensures IdParam(event).Some? ==> GetsById(t, IdParam(event).value, fault, x)
    ensures IdParam(event).None? ==> ListsTable(t, fault, x)
  {
    match fault
    case Some(m) => Exchange(Reply(500, ErrorBody(m)), t)
    case None =>
      match IdParam(event)
      case Some(id) =>
        (match Get(t, id)
         case None => Exchange(Reply(404, MessageBody(NotFoundMessage)), t)
         case Some(item) => Exchange(Reply(200, One(item)), t))
      case None => Exchange(Reply(200, Many(Scan(t))), t)
  }
}

=== FILE: position_api.dfy ===
/**
 * The HTTP contract of the positions API that both hosting shapes serve:
 * requests, responses, and one predicate per logical operation saying what
 * the answer and the table afterwards must be.
 */
module PositionApi {
  import opened Wrappers
  import opened JsValues
  import opened PositionStore

  /**
   * An HTTP method. The five named constructors are the canonical spelling of
   * their verbs: `OtherMethod(name)` stands for every other method, and a
   * request whose method is GET, POST, PUT, DELETE or OPTIONS always carries
   * the named constructor, never `OtherMethod` with that name.
   */
  datatype Method = GET | POST | PUT | DELETE | OPTIONS | OtherMethod(name: string)

  /** `HEAD`, which Express answers through the GET routes without sending the body. */
  const Head := OtherMethod("HEAD")

  /**
   * A request to `/positions` (no path id) or `/positions/{id}`, with its
   * parsed JSON body when it has one.
   */
  datatype Request = Request(verb: Method, pathId: Option<string>, body: Option<Fields>)

  /** The JSON (or text) a response carries. */
  datatype Body =
    | One(item: Item)               // a single position
    | TypedAttributes(item: Item)   // a position in DynamoDB's typed form, `{"id": {"S": …}, "quantity": {"N": …}, …}`
    | Many(items: set<Item>)        // an array of positions, in no particular order
    | ErrorBody(error: string)      // { error }
    | MessageBody(message: string)  // { message }
    | DeletedBody(deleted: string)  // { deleted: id }
    | EmptyObject                   // {}
    | NoBody                        // nothing written: `res.json(undefined)`, or any answer to HEAD
    | StatusText(text: string)      // `sendStatus`: the status phrase as plain text
    | CannotRoute                   // the framework's own page for a request no route matches

  datatype Response = Response(status: int, headers: map<string, string>, body: Body)

  /** What handling one request produces: the response and the table afterwards. */
  datatype Exchange = Exchange(response: Response, table: Table)

  const AllowOrigin := "Access-Control-Allow-Origin"
  const MissingFieldsError := "Missing required fields"
  const NotFoundMessage := "Not found"
  const MethodNotAllowedError := "Method not allowed"

  /** The response lets a page from any origin read it. */
  predicate AllowsAnyOrigin(r: Response) {
    AllowOrigin in r.headers && r.headers[AllowOrigin] == "*"
  }

  /** The `{id}` path parameter when it is present and non-empty (a truthy string). */
  function IdParam(req: Request): Option<string> {
    if req.pathId.Some? && req.pathId.value != "" then req.pathId else None
  }

  /** The destructured body; a request without one is read as `{}`. */
  function BodyFields(req: Request): Fields {
    match req.body
    case None => NoFields
    case Some(f) => f
  }

  /** `!symbol || !quantity || !type || !date` does not hold; `entry` is not checked. */
  function HasRequiredFields(f: Fields): (ok: bool)
    ensures ok <==> f.symbol !in Falsy && f.quantity !in Falsy && f.kind !in Falsy && f.date !in Falsy
  {
    Truthy(f.symbol) && Truthy(f.quantity) && Truthy(f.kind) && Truthy(f.date)
  }

  /** The create check never looks at `entry`: any value of it, `undefined` included, passes. */
  lemma EntryIsNotRequired(f: Fields, entry: Value)
    ensures HasRequiredFields(f.(entry := entry)) == HasRequiredFields(f)
  {
  }

  ghost predicate Answers(x: Exchange, status: int, body: Body) {
    x.response.status == status && x.response.body == body
  }

  /** List all: 200 with every stored item and nothing else, or 500 with the fault's message. */
  ghost predicate ListsTable(t: Table, fault: Option<string>, x: Exchange) {
    && x.table == t
    && match fault
       case Some(m) => Answers(x, 500, ErrorBody(m))
       case None =>
         && x.response.status == 200
         && x.response.body.Many?
         && (forall k :: k in t ==> t[k] in x.response.body.items)
         && (forall it :: it in x.response.body.items ==> exists k :: k in t && t[k] == it)
  }

  /** Get by id: the stored item, 404 `{message: "Not found"}` on a miss, or 500. */
  ghost predicate GetsById(t: Table, id: string, fault: Option<string>, x: Exchange) {
    && x.table == t
    && match fault
       case Some(m) => Answers(x, 500, ErrorBody(m))
       case None =>
         if id in t then Answers(x, 200, One(t[id]))
         else Answers(x, 404, MessageBody(NotFoundMessage))
  }

  /**
   * Create: 400 without touching the table when a required attribute is
   * falsy; otherwise 201 with the item stored under `newId`, every other key
   * untouched, or 500 with the table unchanged.
   */
  ghost predicate Creates(t: Table, f: Fields, newId: string, fault: Option<string>, x: Exchange) {
    if !HasRequiredFields(f) then
      x.table == t && Answers(x, 400, ErrorBody(MissingFieldsError))
    else match fault
      case Some(m) => x.table == t && Answers(x, 500, ErrorBody(m))
      case None =>
        && Answers(x, 201, One(ItemOf(newId, f)))
        && x.table.Keys == t.Keys + {newId}
        && x.table[newId] == ItemOf(newId, f)
        && forall k :: k in t && k != newId ==> x.table[k] == t[k]
  }

  /**
   * The effect of a replace: the five attributes under `id` are overwritten
   * (the item is created when absent), every other key is untouched, and the
   * answer is 200; or 500 with the table unchanged. The body is not fixed.
   */
  ghost predicate Upserts(t: Table, id: string, f: Fields, fault: Option<string>, x: Exchange) {
    match fault
    case Some(m) => x.table == t && Answers(x, 500, ErrorBody(m))
    case None =>
      && x.response.status == 200
      && x.table.Keys == t.Keys + {id}
      && x.table[id] == ItemOf(id, f)
      && forall k :: k in t && k != id ==> x.table[k] == t[k]
  }

  /** Replace: the upsert, answered with the item as written. */
  ghost predicate Replaces(t: Table, id: string, f: Fields, fault: Option<string>, x: Exchange) {
    && Upserts(t, id, f, fault, x)
    && (fault.None? ==> x.response.body == One(ItemOf(id, f)))
  }

  /** Delete: `{deleted: id}` whether or not the key was there; only that key goes. */
  ghost predicate Deletes(t: Table, id: string, fault: Option<string>, x: Exchange) {
    match fault
    case Some(m) => x.table == t && Answers(x, 500, ErrorBody(m))
    case None =>
      && Answers(x, 200, DeletedBody(id))
      && x.table.Keys == t.Keys - {id}
      && forall k :: k in x.table ==> x.table[k] == t[k]
  }
}

=== FILE: position_store.dfy ===
/**
 * The Bitcoin positions table: a flat map from id to item, the five table
 * calls both hosting shapes make against it, and the fresh-id oracle that
 * stands in for `uuidv4()`.
 */
module PositionStore {
  import opened Wrappers
  import opened JsValues

  /**
   * The five attributes a client sends, as destructured from the request
   * body; one the body does not have is `Undefined`. The source's `type`
   * attribute is `kind` here (`type` is a Dafny keyword).
   */
  datatype Fields = Fields(symbol: Value, quantity: Value, kind: Value, entry: Value, date: Value)

  /** What destructuring `{}` yields: every attribute undefined. */
  const NoFields := Fields(Undefined, Undefined, Undefined, Undefined, Undefined)

  /** A stored position: its key and its five attributes. */
  datatype Item = Item(id: string, symbol: Value, quantity: Value, kind: Value, entry: Value, date: Value)
  {
    function Attributes(): Fields {
      Fields(symbol, quantity, kind, entry, date)
    }
  }

  /** The item `{ id, symbol, quantity, type, entry, date }`. */
  function ItemOf(id: string, f: Fields): (item: Item)
    ensures item.id == id && item.Attributes() == f
  {
    Item(id, f.symbol, f.quantity, f.kind, f.entry, f.date)
  }

  type Table = map<string, Item>

  /** Every item is stored under its own id. */
  ghost predicate WellKeyed(t: Table) {
    forall k :: k in t ==> t[k].id == k
  }

  /** `scan`: every stored item, each once (the order of the array is not modelled). */
  function Scan(t: Table): (items: set<Item>)
    ensures forall k :: k in t ==> t[k] in items
    ensures forall it :: it in items ==> exists k :: k in t && t[k] == it
  {
    t.Values
  }

  /** `get` by key. */
  function Get(t: Table, id: string): (r: Option<Item>)
    ensures r.Some? <==> id in t
    ensures r.Some? ==> r.value == t[id]
  {
    if id in t then Some(t[id]) else None
  }

  /** `put`: writes the whole item under its id, replacing any item already there. */
  function Put(t: Table, item: Item): (t': Table)
    ensures t'.Keys == t.Keys + {item.id}
    ensures t'[item.id] == item
    ensures forall k :: k in t && k != item.id ==> t'[k] == t[k]
  {
    t[item.id := item]
  }

  /** The table after an `update`, and the attributes the call answers with. */
  datatype Updated = Updated(table: Table, attributes: Option<Item>)

  /**
   * `update` with `SET symbol, quantity, type, entry, date` and
   * `ReturnValues: ALL_NEW`: writes the five attributes under `id`, creating
   * the item when the key is absent, and answers with every attribute of the
   * item afterwards. Items here hold exactly these attributes and their key,
   * so the answer is always present.
   */
  function Update(t: Table, id: string, f: Fields): (u: Updated)
    ensures u.table.Keys == t.Keys + {id}
    ensures u.table[id] == ItemOf(id, f)
    ensures forall k :: k in t && k != id ==> u.table[k] == t[k]
    ensures u.attributes == Some(u.table[id])
  {
    Updated(t[id := ItemOf(id, f)], Some(ItemOf(id, f)))
  }

  /** `delete` by key; removing an absent key is not an error. */
  function Delete(t: Table, id: string): (t': Table)
    ensures t'.Keys == t.Keys - {id}
    ensures forall k :: k in t' ==> t'[k] == t[k]
  {
    t - {id}
  }

  /** A length that no key in `keys` reaches. */
  ghost function LongerThanAll(keys: set<string>): (n: nat)
    ensures forall k :: k in keys ==> |k| < n
    decreases keys
  {
    if keys == {} then 0
    else
      var k :| k in keys;
      var rest := LongerThanAll(keys - {k});
      if |k| < rest then rest else |k| + 1
  }

  /** The fresh-id oracle standing in for `uuidv4()`: an id under which nothing is stored. */
  ghost function FreshId(t: Table): (id: string)
    ensures id !in t
  {
    seq(LongerThanAll(t.Keys), _ => 'x')
  }
}

=== FILE: price_feed.dfy ===
/**
 * The browser's price-feed connection: the `reconnectAttempts` counter, the
 * connection indicator, and what each socket event makes the page do. Timers
 * are not run; a transition only reports the delay it schedules.
 */
module PriceFeed {

  const MaxReconnectAttempts: nat := 5
  const MaxDelayMs: nat := 30000

  /** The indicator's text: "Live", "Reconnecting..." or "Disconnected". */
  datatype Indicator = Live | Reconnecting | Disconnected

  /** The two notices the feed logic raises: "Lost connection ... Reconnecting..." and "... Please refresh the page." */
  datatype Notice = LostConnection | RefreshPage

  /** What a transition asks of the page: show a notice, or open a new socket after a delay. */
  datatype Effect = Notify(notice: Notice) | ScheduleReconnect(delayMs: nat)

  /** The feed state: `reconnectAttempts` and the indicator. */
  datatype Feed = Feed(attempts: nat, indicator: Indicator)

  /** The socket callbacks: `onopen`, `onerror`, `onclose`. */
  datatype Event = Opened | Errored | Closed

  /** The state after an event and the effects it produced, in order. */
  datatype Step = Step(feed: Feed, effects: seq<Effect>)

  /** The counter never goes past `MAX_RECONNECT_ATTEMPTS`. */
  ghost predicate Bounded(f: Feed) {
    f.attempts <= MaxReconnectAttempts
  }

  function Pow2(n: nat): nat {
    if n == 0 then 1 else 2 * Pow2(n - 1)
  }

  lemma {:induction false} Pow2Monotone(k: nat, n: nat)
    requires k <= n
    ensures Pow2(k) <= Pow2(n)
    decreases n
  {
    if k < n {
      Pow2Monotone(k, n - 1);
    }
  }

  lemma Pow2Bounds(n: nat)
    ensures 1 <= n ==> 2 <= Pow2(n)
    ensures n <= 4 ==> Pow2(n) <= 16
    ensures 5 <= n ==> 32 <= Pow2(n)
  {
    if 1 <= n { Pow2Monotone(1, n); }
    if n <= 4 { Pow2Monotone(n, 4); }
    if 5 <= n { Pow2Monotone(5, n); }
  }

  /**
   * `Math.min(1000 * Math.pow(2, n), 30000)`, where `n` is the counter after
   * its increment: at least two seconds, at most thirty, and capped from the
   * fifth attempt on.
   */
  function BackoffDelay(n: nat): (d: nat)
    ensures d <= MaxDelayMs
    ensures 1 <= n ==> 2000 <= d
    ensures n >= 5 ==> d == MaxDelayMs
    ensures n <= 4 ==> d == 1000 * Pow2(n)
  {
    Pow2Bounds(n);
    var raw := 1000 * Pow2(n);
    if raw < MaxDelayMs then raw else MaxDelayMs
  }

  /** `updateConnectionStatus(connected)`: a disconnect reads "Reconnecting..." once retries have begun. */
  function Shown(connected: bool, attempts: nat): (i: Indicator)
    ensures i == Live <==> connected
    ensures i == Reconnecting <==> !connected && attempts > 0
  {
    if connected then Live else if attempts > 0 then Reconnecting else Disconnected
  }

  /** `onopen`: the counter resets and the indicator goes live. */
  function OnOpen(f: Feed): (s: Step)
    ensures s.feed.attempts == 0 && s.feed.indicator == Live
    ensures s.effects == []
  {
    Step(Feed(0, Shown(true, 0)), [])
  }

  /** `onerror`: the indicator leaves "Live"; the lost-connection notice only before any retry. */
  function OnError(f: Feed): (s: Step)
    ensures s.feed.attempts == f.attempts
    ensures s.feed.indicator != Live
    ensures s.feed.indicator == (if f.attempts > 0 then Reconnecting else Disconnected)
    ensures Notify(LostConnection) in s.effects <==> f.attempts == 0
    ensures forall e :: e in s.effects ==> e == Notify(LostConnection)
  {
    Step(Feed(f.attempts, Shown(false, f.attempts)),
         if f.attempts == 0 then [Notify(LostConnection)] else [])
  }

  /**
   * `attemptReconnect`: below the limit, count one more attempt and schedule
   * exactly one reopening after the backoff for the new count; at the limit,
   * schedule nothing and tell the user to refresh.
   */
  function AttemptReconnect(f: Feed): (s: Step)
    ensures s.feed.indicator == f.indicator
    ensures f.attempts < MaxReconnectAttempts ==>
              && s.feed.attempts == f.attempts + 1
              && |s.effects| == 1 && s.effects[0].ScheduleReconnect?
              && s.effects[0].delayMs == BackoffDelay(s.feed.attempts)
              && 2000 <= s.effects[0].delayMs <= MaxDelayMs
    ensures f.attempts >= MaxReconnectAttempts ==>
              s.feed == f && s.effects == [Notify(RefreshPage)]
  {
    if f.attempts < MaxReconnectAttempts then
      var n := f.attempts + 1;
      Step(Feed(n, f.indicator), [ScheduleReconnect(BackoffDelay(n))])
    else
      Step(f, [Notify(RefreshPage)])
  }

  /** `onclose`: show the disconnect (with the counter as it stands), then attempt to reconnect. */
  function OnClose(f: Feed): (s: Step)
    ensures s.feed.indicator == (if f.attempts > 0 then Reconnecting else Disconnected)
    ensures f.attempts < MaxReconnectAttempts ==>
              s.feed.attempts == f.attempts + 1 && s.effects == [ScheduleReconnect(BackoffDelay(f.attempts + 1))]
    ensures f.attempts >= MaxReconnectAttempts ==>
              s.feed.attempts == f.attempts && s.effects == [Notify(RefreshPage)]
  {
    AttemptReconnect(Feed(f.attempts, Shown(false, f.attempts)))
  }

  function Handle(f: Feed, e: Event): (s: Step)
    ensures Bounded(f) ==> Bounded(s.feed)
  {
    match e
    case Opened => OnOpen(f)
    case Errored => OnError(f)
    case Closed => OnClose(f)
  }

  /** The events delivered one after another; effects accumulate in order. */
  function Run(f: Feed, events: seq<Event>): Step
    decreases |events|
  {
    if |events| == 0 then Step(f, [])
    else
      var first := Handle(f, events[0]);
      var rest := Run(first.feed, events[1..]);
      Step(rest.feed, first.effects + rest.effects)
  }

  /** No sequence of socket events takes the counter past five. */
  lemma {:induction false} RunStaysBounded(f: Feed, events: seq<Event>)
    requires Bounded(f)
    ensures Bounded(Run(f, events).feed)
    decreases |events|
  {
    if |events| > 0 {
      RunStaysBounded(Handle(f, events[0]).feed, events[1..]);
    }
  }

  /** Every delay scheduled in any run lies between two and thirty seconds. */
  lemma {:induction false} RunDelaysInRange(f: Feed, events: seq<Event>)
    ensures forall e :: e in Run(f, events).effects && e.ScheduleReconnect? ==> 2000 <= e.delayMs <= MaxDelayMs
    decreases |events|
  {
    if |events| > 0 {
      RunDelaysInRange(Handle(f, events[0]).feed, events[1..]);
    }
  }

  /** Running `a` then `b` is running `a + b`. */
  lemma {:induction false} RunAppend(f: Feed, a: seq<Event>, b: seq<Event>)
    ensures var ra := Run(f, a);
            var rb := Run(ra.feed, b);
            Run(f, a + b) == Step(rb.feed, ra.effects + rb.effects)
    decreases |a|
  {
    if |a| == 0 {
      assert a + b == b;
    } else {
      assert (a + b)[1..] == a[1..] + b;
      RunAppend(Handle(f, a[0]).feed, a[1..], b);
    }
  }

  /** A failure episode of `k` failed sockets: each reports an error, then closes. */
  function Failures(k: nat): seq<Event> {
    if k == 0 then [] else Failures(k - 1) + [Errored, Closed]
  }

  /** The scheduled delays, in order. */
  function Delays(effects: seq<Effect>): seq<nat> {
    if |effects| == 0 then []
    else (if effects[0].ScheduleReconnect? then [effects[0].delayMs] else []) + Delays(effects[1..])
  }

  /** How many times a notice is shown. */
  function Shows(effects: seq<Effect>, n: Notice): nat {
    if |effects| == 0 then 0
    else (if effects[0] == Notify(n) then 1 else 0) + Shows(effects[1..], n)
  }

  lemma {:induction false} DelaysAppend(a: seq<Effect>, b: seq<Effect>)
    ensures Delays(a + b) == Delays(a) + Delays(b)
    decreases |a|
  {
    if |a| > 0 {
      assert (a + b)[1..] == a[1..] + b;
      DelaysAppend(a[1..], b);
    } else {
      assert a + b == b;
    }
  }

  lemma {:induction false} ShowsAppend(a: seq<Effect>, b: seq<Effect>, n: Notice)
    ensures Shows(a + b, n) == Shows(a, n) + Shows(b, n)
    decreases |a|
  {
    if |a| > 0 {
      assert (a + b)[1..] == a[1..] + b;
      ShowsAppend(a[1..], b, n);
    } else {
      assert a + b == b;
    }
  }

  const BackoffSchedule: seq<nat> := [2000, 4000, 8000, 16000, 30000]

  /** The backoff for attempts one to five is 2, 4, 8, 16 and 30 seconds. */
  lemma BackoffScheduleValues(j: nat)
    requires 1 <= j <= 5
    ensures BackoffDelay(j) == BackoffSchedule[j - 1]
  {
    if j == 5 {
      assert BackoffDelay(5) == MaxDelayMs;
    } else {
      assert BackoffDelay(j) == 1000 * Pow2(j);
    }
  }

  function Min(a: nat, b: nat): nat {
    if a < b then a else b
  }

  /** One failed socket: the error callback, then the close callback. */
  lemma OneFailure(f: Feed)
    requires Bounded(f)
    ensures var s := Run(f, [Errored, Closed]);
            && s.feed.attempts == Min(f.attempts + 1, MaxReconnectAttempts)
            && Delays(s.effects) == (if f.attempts < MaxReconnectAttempts then [BackoffDelay(f.attempts + 1)] else [])
            && Shows(s.effects, LostConnection) == (if f.attempts == 0 then 1 else 0)
            && Shows(s.effects, RefreshPage) == (if f.attempts < MaxReconnectAttempts then 0 else 1)
  {
    var e := OnError(f);
    var c := OnClose(e.feed);
    assert [Errored, Closed][1..] == [Closed];
    assert Run(e.feed, [Closed]) == Step(c.feed, c.effects + []);
    assert Run(f, [Errored, Closed]) == Step(c.feed, e.effects + (c.effects + []));
    DelaysAppend(e.effects, c.effects + []);
    ShowsAppend(e.effects, c.effects + [], LostConnection);
    ShowsAppend(e.effects, c.effects + [], RefreshPage);
    assert c.effects + [] == c.effects;
  }

  lemma TakeOneMore(s: seq<nat>, k: nat)
    requires 0 < k <= |s|
    ensures s[..k] == s[..k - 1] + [s[k - 1]]
  {
  }

  /** The last failure of an episode comes after the ones before it. */
  lemma EpisodeSplit(f: Feed, k: nat)
    requires k > 0
    ensures var p := Run(f, Failures(k - 1));
            var q := Run(p.feed, [Errored, Closed]);
            Run(f, Failures(k)) == Step(q.feed, p.effects + q.effects)
  {
    RunAppend(f, Failures(k - 1), [Errored, Closed]);
  }

  /** The counter and the delays of an episode of `k` failures. */
  lemma {:induction false} EpisodeBackoff(f: Feed, k: nat)
    requires f.attempts == 0
    ensures var s := Run(f, Failures(k));
            && s.feed.attempts == Min(k, MaxReconnectAttempts)
            && Delays(s.effects) == BackoffSchedule[..Min(k, MaxReconnectAttempts)]
  {
    if k > 0 {
      EpisodeBackoff(f, k - 1);
      var p := Run(f, Failures(k - 1));
      var q := Run(p.feed, [Errored, Closed]);
      EpisodeSplit(f, k);
      OneFailure(p.feed);
      DelaysAppend(p.effects, q.effects);
      if k <= MaxReconnectAttempts {
        BackoffScheduleValues(k);
        TakeOneMore(BackoffSchedule, k);
      }
    }
  }

  /** The notices of an episode of `k` failures. */
  lemma {:induction false} EpisodeNotices(f: Feed, k: nat)
    requires f.attempts == 0
    ensures var s := Run(f, Failures(k));
            && Shows(s.effects, LostConnection) == (if k == 0 then 0 else 1)
            && Shows(s.effects, RefreshPage) == (if k <= MaxReconnectAttempts then 0 else k - MaxReconnectAttempts)
  {
    if k > 0 {
      EpisodeNotices(f, k - 1);
      EpisodeBackoff(f, k - 1);
      var p := Run(f, Failures(k - 1));
      var q := Run(p.feed, [Errored, Closed]);
      EpisodeSplit(f, k);
      OneFailure(p.feed);
      ShowsAppend(p.effects, q.effects, LostConnection);
      ShowsAppend(p.effects, q.effects, RefreshPage);
    }
  }

  /**
   * From a fresh connection, `k` consecutive failures schedule the delays
   * 2, 4, 8, 16, 30 seconds (as many as there were failures, at most five),
   * show the lost-connection notice once, and answer every failure past the
   * fifth with the refresh notice instead of a new attempt. Only the first
   * socket and the five scheduled ones can fail, so an episode has at most
   * six failures and the refresh notice then shows exactly once.
   */
  lemma FailureEpisode(f: Feed, k: nat)
    requires f.attempts == 0
    ensures var s := Run(f, Failures(k));
            && s.feed.attempts == Min(k, MaxReconnectAttempts)
            && Delays(s.effects) == BackoffSchedule[..Min(k, MaxReconnectAttempts)]
            && Shows(s.effects, LostConnection) == (if k == 0 then 0 else 1)
            && Shows(s.effects, RefreshPage) == (if k <= MaxReconnectAttempts then 0 else k - MaxReconnectAttempts)
  {
    EpisodeBackoff(f, k);
    EpisodeNotices(f, k);
  }
}

=== FILE: valuation.dfy ===
/**
 * The browser's live profit-and-loss figures: per-position percentage and
 * absolute P&L, and the aggregate total, as pure functions of the latest
 * trade price and the position list. Prices and quantities are real numbers.
 */
module Valuation {

  /** A position as the client holds it after fetching the list (`type` is `kind`). */
  datatype Holding = Holding(id: string, symbol: string, quantity: real, kind: string, entry: real, date: string)

  /** Only `"buy"` counts as long; any other type is valued as a short. */
  predicate IsBuy(p: Holding) {
    p.kind == "buy"
  }

  /** The price move in the position's favour. */
  function Gain(price: real, p: Holding): real {
    if IsBuy(p) then price - p.entry else p.entry - price
  }

  /**
   * `calculatePnL`: zero while there is no price or no entry, otherwise the
   * favourable move as a percentage of the entry.
   */
  function PnLPercent(price: real, p: Holding): (r: real)
    ensures price == 0.0 || p.entry == 0.0 ==> r == 0.0
    ensures price != 0.0 && p.entry != 0.0 ==> r * p.entry == 100.0 * Gain(price, p)
  {
    if price == 0.0 || p.entry == 0.0 then 0.0
    else (Gain(price, p) / p.entry) * 100.0
  }

  /** The row's absolute P&L: current value minus entry value, the other way round for a short. */
  function PnLAbsolute(price: real, p: Holding): (r: real)
    ensures r == Gain(price, p) * p.quantity
  {
    var currentValue := price * p.quantity;
    var entryValue := p.entry * p.quantity;
    if IsBuy(p) then currentValue - entryValue else entryValue - currentValue
  }

  /** `positions.reduce((acc, p) => acc + pnl(p), acc)`, folding from the left. */
  function Reduce(price: real, ps: seq<Holding>, acc: real): (r: real)
    ensures r == acc + RowSum(price, ps)
    decreases |ps|
  {
    if |ps| == 0 then acc else Reduce(price, ps[1..], acc + PnLAbsolute(price, ps[0]))
  }

  /** `updatePnL`: zero with no positions or no price, otherwise the fold from zero. */
  function TotalPnL(price: real, ps: seq<Holding>): (r: real)
    ensures |ps| == 0 || price == 0.0 ==> r == 0.0
  {
    if |ps| == 0 || price == 0.0 then 0.0 else Reduce(price, ps, 0.0)
  }

  /** Signed quantity: long positions count positive, shorts negative. */
  function Signed(p: Holding, v: real): real {
    if IsBuy(p) then v else -v
  }

  /** The net quantity held: longs minus shorts. */
  function NetQuantity(ps: seq<Holding>): real
    decreases |ps|
  {
    if |ps| == 0 then 0.0 else Signed(ps[0], ps[0].quantity) + NetQuantity(ps[1..])
  }

  /** The net amount paid to enter: long entry values minus short entry values. */
  function NetCost(ps: seq<Holding>): real
    decreases |ps|
  {
    if |ps| == 0 then 0.0 else Signed(ps[0], ps[0].entry * ps[0].quantity) + NetCost(ps[1..])
  }

  /** One row's absolute P&L is its signed quantity times the price, less its signed entry value. */
  lemma RowIsExposure(price: real, p: Holding)
    ensures PnLAbsolute(price, p) == price * Signed(p, p.quantity) - Signed(p, p.entry * p.quantity)
  {
  }

  /** The rows' P&L add up to the net exposure valued at `price`. */
  lemma {:induction false} RowSumIsExposure(price: real, ps: seq<Holding>)
    ensures RowSum(price, ps) == price * NetQuantity(ps) - NetCost(ps)
    decreases |ps|
  {
    if |ps| > 0 {
      RowSumIsExposure(price, ps[1..]);
      RowIsExposure(price, ps[0]);
      assert price * NetQuantity(ps) == price * Signed(ps[0], ps[0].quantity) + price * NetQuantity(ps[1..]);
    }
  }

  /**
   * The displayed total is the net position valued at the live price less
   * what it cost to enter: `price · Σ±quantity − Σ±entry·quantity`, with `+`
   * for buys and `−` for sells.
   */
  lemma TotalIsNetExposure(price: real, ps: seq<Holding>)
    requires |ps| > 0 && price != 0.0
    ensures TotalPnL(price, ps) == price * NetQuantity(ps) - NetCost(ps)
  {
    RowSumIsExposure(price, ps);
  }

  /** The total is the sum of the rows' absolute P&L whenever there is a price. */
  function RowSum(price: real, ps: seq<Holding>): real
    decreases |ps|
  {
    if |ps| == 0 then 0.0 else PnLAbsolute(price, ps[0]) + RowSum(price, ps[1..])
  }

  lemma TotalIsRowSum(price: real, ps: seq<Holding>)
    requires price != 0.0
    ensures TotalPnL(price, ps) == RowSum(price, ps)
  {
  }

  /** The same position taken the other way: a buy becomes a sell and anything else a buy. */
  function Opposite(p: Holding): (q: Holding)
    ensures IsBuy(q) != IsBuy(p)
  {
    p.(kind := if IsBuy(p) then "sell" else "buy")
  }

  /**
   * Buy and sell percentages for the same entry and price are exact
   * negatives, and so are the absolute figures.
   */
  lemma OppositeNegates(price: real, p: Holding)
    ensures PnLPercent(price, Opposite(p)) == -PnLPercent(price, p)
    ensures PnLAbsolute(price, Opposite(p)) == -PnLAbsolute(price, p)
  {
    var q := Opposite(p);
    assert q.entry == p.entry && q.quantity == p.quantity;
    assert Gain(price, q) == -Gain(price, p);
    if price != 0.0 && p.entry != 0.0 {
      assert Gain(price, q) / p.entry == -(Gain(price, p) / p.entry);
    }
  }

  /**
   * With a price and an entry, the percentage is the absolute P&L as a share
   * of the entry value: `abs = pct / 100 · entry · quantity`.
   */
  lemma PercentMatchesAbsolute(price: real, p: Holding)
    requires price != 0.0 && p.entry != 0.0
    ensures PnLAbsolute(price, p) == PnLPercent(price, p) / 100.0 * p.entry * p.quantity
  {
    var g := Gain(price, p);
    assert PnLPercent(price, p) / 100.0 * p.entry == g;
    assert PnLAbsolute(price, p) == g * p.quantity;
  }

  /** Entry 100, price 110, quantity 2: a buy is up 20 (10%), a sell down 20 (−10%). */
  lemma WorkedExample()
    ensures var buy := Holding("a", "BTCUSDT", 2.0, "buy", 100.0, "d");
            var sell := buy.(kind := "sell");
            && PnLAbsolute(110.0, buy) == 20.0 && PnLPercent(110.0, buy) == 10.0
            && PnLAbsolute(110.0, sell) == -20.0 && PnLPercent(110.0, sell) == -10.0
            && TotalPnL(110.0, [buy, sell]) == 0.0
  {
    var buy := Holding("a", "BTCUSDT", 2.0, "buy", 100.0, "d");
    var sell := buy.(kind := "sell");
    assert !IsBuy(sell);
    assert PnLAbsolute(110.0, buy) == 20.0;
    assert PnLPercent(110.0, buy) == 10.0;
    assert PnLAbsolute(110.0, sell) == -20.0;
    assert PnLPercent(110.0, sell) == -10.0;
    assert [buy, sell][1..] == [sell];
    assert [sell][1..] == [];
    assert RowSum(110.0, [sell]) == -20.0;
    TotalIsRowSum(110.0, [buy, sell]);
    assert TotalPnL(110.0, [buy, sell]) == 0.0;
  }
}

=== FILE: wrappers.dfy ===
/** Option and Result values for lookups that can miss and steps that can fail. */
module Wrappers {

  datatype Option<+T> = None | Some(value: T)

  datatype Result<+T, +E> = Ok(value: T) | Err(error: E)
}
